=== FILE: README.md ===
# Tetris: a verified model of the game core

This project models the game logic of a browser Tetris repository that ships two
variants and a leaderboard:

- **Desktop** (`latest/src/main.js`): a 10×20 board, seven square shape matrices,
  rotation by transpose-then-reverse, freezing a piece into the board, the
  staged line clear (detect full rows, then compact and score), levels,
  drop speed, the mouse-wheel speed offset, the ghost (hard-drop landing) position,
  the two-piece preview queue, pause and keyboard input.
- **Mobile** (`mobile_tetris/game.js`): an arena of at least 4 columns and 2 rows
  (10×20 in the source), rectangular piece
  matrices, collision, merge, rotation with wall kicks, a 7-bag randomiser
  (Fisher–Yates shuffle), spawning, the arena sweep and the drop timer.
- **Leaderboard** (`latest/src/leaderboard.js`): saving a score into a list kept
  sorted by score (ties by faster time) and capped at 50 entries, loading a
  possibly missing list, and formatting milliseconds as `m:ss`.

Every operation is a pure function on immutable values. `Math.random()` is
replaced by a sequence of caller-supplied natural numbers (`rolls`), and a draw
`Math.floor(Math.random() * n)` becomes `roll % n`. Browser storage becomes an
`Option` parameter: `None` is an absent key. Wall-clock time arrives as an integer
argument. Grids are `seq<seq<int>>`. The shared matrix algebra lives in module
`Matrix`: transpose, reversals, cell multisets, and stamping a piece into a grid.

Modules: `Wrappers` (Option), `Matrix`, `DesktopBoard`, `DesktopGame`,
`MobileArena`, `MobileGame`, `Leaderboard`.

## Model

| member | source | states |
|---|---|---|
| Matrix.TransposeLoopIsBlock | latest/src/main.js:134-138 | the in-place swap loop over the lower triangle computes exactly the transpose of the leading square block |
| Matrix.TransposeBlockCells | latest/src/main.js:134-138 | the swap loop only permutes cells: the multiset of cell values is unchanged |
| Matrix.Clockwise | latest/src/main.js:131-142 | transpose-then-reverse-each-row keeps the row count and the multiset of cells |
| Matrix.CounterClockwise | mobile_tetris/game.js:441-455 | transpose-then-reverse-row-order keeps the row count and the multiset of cells |
| Matrix.ClockwiseSquare | latest/src/main.js:131-142 | on a square matrix the result is the quarter turn clockwise: cell (i, j) comes from (n-1-j, i) |
| Matrix.CounterClockwiseSquare | mobile_tetris/game.js:441-457 | on a square matrix the counter-clockwise variant is the quarter turn counter-clockwise |
| Matrix.TurnBack | mobile_tetris/game.js:441-457 | a clockwise quarter turn followed by a counter-clockwise one gives back the original square |
| Matrix.Stamp | mobile_tetris/game.js:394-402 | writing a piece into a grid changes exactly the cells under the piece's non-zero cells, to the piece's values, and nothing else |
| DesktopBoard.EmptyGrid | latest/src/main.js:106-108 | the empty board has ROWS rows of COLS zeros |
| DesktopBoard.ValidExactly | latest/src/main.js:110-129 | a piece is valid iff every non-zero cell lands inside the walls (0 ≤ x < COLS, y < ROWS) on a board cell holding 0 |
| DesktopBoard.ValidIsOnGrid | latest/src/main.js:110-129 | a valid piece's blocks all lie on the board |
| DesktopBoard.Rotate | latest/src/main.js:131-142 | rotation keeps the piece's type and position and the multiset of its cells, and on a square shape is a clockwise quarter turn |
| DesktopBoard.HalfTurn | latest/src/main.js:131-142 | rotating a square piece twice turns it by 180 degrees |
| DesktopBoard.RotateFourTimes | latest/src/main.js:131-142 | four rotations give back the same piece |
| DesktopBoard.ShapesSquare | latest/src/main.js:28-37 | every shape in the table is a square matrix of side 2 to 4 |
| DesktopBoard.ShapesHoldType | latest/src/main.js:28-37 | shape t contains the colour index t |
| DesktopBoard.Freeze | latest/src/main.js:154-162 | freezing keeps the board's shape, writes the piece's value into each covered cell and leaves every other cell as it was |
| DesktopBoard.FullRows | latest/src/main.js:487-492 | the detected row list is strictly increasing and holds a row index iff that row is full |
| DesktopBoard.Compact | latest/src/main.js:531-536 | the cleared board is one zero row per full row on top of the non-full rows in their original order, has ROWS×COLS cells and no full row |
| DesktopBoard.ClearScore | latest/src/main.js:539-542 | the clear score is never below the line-table value, is positive iff a line was cleared and zero when none was |
| DesktopBoard.KeepFullRows | latest/src/main.js:531-536 | splicing out the detected rows leaves exactly the non-full rows, and kept plus removed rows account for every row |
| DesktopGame.Spawn | latest/src/main.js:171-183 | a new piece has a type in 1..7, that type's shape, and starts at x = 3, y = 0 |
| DesktopGame.NextPiece | latest/src/main.js:386-401 | the preview queue is first-in first-out: the head is handed out, the queue is topped up to two pieces with fresh spawns, and only spawned pieces ever appear |
| DesktopGame.Moved | latest/src/main.js:853-859 | left and right shift x by one, down and space lower y by one, up rotates in place keeping type, position and multiset of cells, and turns a square shape a quarter clockwise; the type is kept for every key |
| DesktopGame.Ghost | latest/src/main.js:644-658 | the ghost has the piece's column and shape, sits at or below it, every position on the way down is valid, and one row lower is not |
| DesktopGame.HardDropDescent | latest/src/main.js:825-840 | the hard-drop loop stops exactly at the ghost position |
| DesktopGame.BaseSpeed | latest/src/main.js:595-598 | the base interval is 1000 - 50·level, floored at 100 ms, so it is exactly 100 ms from level 18 on |
| DesktopGame.Interval | latest/src/main.js:600-603 | the drop interval is the base speed plus the wheel offset when that is at least 50 ms, and exactly 50 ms otherwise |
| DesktopGame.IntervalMonotone | latest/src/main.js:595-603 | a higher level never gives a slower drop |
| DesktopGame.CheckLevel | latest/src/main.js:605-612 | the level rises to the line count when that is larger, and only then is the interval recomputed; nothing else changes |
| DesktopGame.FreezeFillsAtMostShapeRows | latest/src/main.js:154-162 | freezing a valid piece onto a board without full rows fills at most as many rows as the shape has, so at most four |
| DesktopGame.FinalizeClear | latest/src/main.js:527-557 | finishing a clear compacts the board, adds the level-scaled score and the line count, raises the level, and spawns the next queued piece, ending the game iff it does not fit |
| DesktopGame.CheckAndStartClear | latest/src/main.js:486-537 | with full rows the board becomes exactly the compacted board (full rows removed, zero rows on top) and score, lines and level follow; with none the board and level are untouched and only the next piece is spawned; either way no full row is left |
| DesktopGame.Land | latest/src/main.js:468-484 | locking keeps the game invariant; blocks in the top row end the game with the frozen board; otherwise the board is the frozen board, compacted when it has full rows, the queue head becomes the piece and the score grows by the clear score |
| DesktopGame.Drop | latest/src/main.js:468-484 | a drop lowers the piece by one when that is valid and locks it otherwise |
| DesktopGame.HardDrop | latest/src/main.js:825-840 | a hard drop locks the piece at its ghost position |
| DesktopGame.TogglePause | latest/src/main.js:403-420 | pause cannot toggle once the game is over; otherwise only the paused flag flips |
| DesktopGame.TogglePauseTwice | latest/src/main.js:403-420 | toggling pause twice gives back the same game |
| DesktopGame.HandleWheel | latest/src/main.js:588-593 | a wheel event moves the speed offset by exactly 50, upward iff the wheel delta is positive, and touches nothing else but the interval |
| DesktopGame.Reset | latest/src/main.js:351-384 | a new game has score, lines and level 0, a 1000 ms interval, a spawned piece and two queued pieces, and satisfies the invariant |
| DesktopGame.HandleInput | latest/src/main.js:810-851 | after game over Enter restarts through `reset` and every other key does nothing; pause toggles; a paused game ignores other keys; space hard-drops; a left, right, down or up move is committed iff the moved piece is valid, and an invalid one changes nothing; the invariant is kept |
| DesktopGame.Tick | latest/src/main.js:421-438 | the game drops one step only when unpaused and more than one interval has passed |
| MobileArena.PiecesTable | mobile_tetris/game.js:39-48 | every piece matrix is rectangular with one or two rows of width 2 to 4 |
| MobileArena.CreateGrid | mobile_tetris/game.js:276-278 | a new arena has ROWS rows of COLS zero cells |
| MobileArena.CollideOverlaps | mobile_tetris/game.js:280-291 | collide holds iff some non-zero piece cell lies on a non-zero or missing arena cell |
| MobileArena.NoCollideLands | mobile_tetris/game.js:280-291 | a piece that does not collide lies wholly on empty arena cells |
| MobileArena.Merge | mobile_tetris/game.js:394-402 | merging writes the piece's values into exactly its covered cells and leaves the rest of the arena unchanged |
| MobileArena.Rotate | mobile_tetris/game.js:441-457 | rotation keeps the row count and the multiset of cells |
| MobileArena.RotateSquare | mobile_tetris/game.js:441-457 | on a square matrix a positive direction turns clockwise and any other direction counter-clockwise |
| MobileArena.RotateUndo | mobile_tetris/game.js:434 | on a square matrix rotating back in the opposite direction restores the matrix |
| MobileArena.FirstFit | mobile_tetris/game.js:430-438 | the reference search: the first kick index whose offset clears the arena, with every earlier one colliding, or none when all collide |
| MobileArena.KickFirstFit | mobile_tetris/game.js:430-438 | the alternating wall-kick loop 1, -2, 3, … gives up exactly when the offset exceeds the width, and finds the first fitting offset of the reference search |
| MobileArena.PlayerRotate | mobile_tetris/game.js:426-439 | as written: the rotated piece takes the first fitting kick; when none fits it is rotated back the other way at the original column |
| MobileArena.PlayerRotateSquare | mobile_tetris/game.js:426-439 | for a square matrix a rotation either leaves the player unchanged or yields the rotated matrix at a non-colliding column |
| MobileArena.PlayerRotateTeeAsWritten | mobile_tetris/game.js:426-457 | the T piece on a small arena fits before rotating, finds no kick, and is left as a different, colliding matrix |
| MobileArena.QuarterTurnUndo | mobile_tetris/game.js:441-457 | the corrected quarter turn of a rectangle is undone by the opposite turn |
| MobileArena.QuarterTurnIsRotate | mobile_tetris/game.js:441-457 | on square matrices the corrected quarter turn agrees with the source's rotate |
| MobileArena.PlayerRotateFixed | mobile_tetris/game.js:426-439 | corrected rotation: either the player is unchanged or it carries the quarter-turned matrix at a non-colliding column |
| MobileArena.SweepShape | mobile_tetris/game.js:485-528 | the sweep keeps the arena's size, leaves no full row, and changes nothing when no row is full |
| MobileArena.SweepTwice | mobile_tetris/game.js:485-528 | sweeping twice equals sweeping once |
| MobileArena.ArenaSweep | mobile_tetris/game.js:485-528 | the bottom-up splice loop removes every full row, inserts a zero row on top per removal, keeps other rows in order, and counts the removed rows |
| MobileGame.FreshBag | mobile_tetris/game.js:59-71 | a new bag holds the piece indices 1 to 7 |
| MobileGame.Shuffle | mobile_tetris/game.js:52-58 | the Fisher–Yates shuffle is a permutation of its input |
| MobileGame.ShuffleFirstPick | mobile_tetris/game.js:52-58 | the shuffle's last slot receives the element the first roll picks |
| MobileGame.GetNextPiece | mobile_tetris/game.js:59-71 | a draw pops the bag's last index; an empty bag is refilled with a shuffled 1..7 first, so drawn piece plus remaining bag is a full set |
| MobileGame.SevenDraws | mobile_tetris/game.js:59-71 | seven draws from an empty bag yield each of the seven pieces exactly once and leave the bag empty |
| MobileGame.PlayerReset | mobile_tetris/game.js:460-483 | the next piece spawns centred on row 0; if it collides the arena is cleared and the score reset, otherwise both are kept |
| MobileGame.Start | mobile_tetris/game.js:570-577 | a new game has an empty arena, score 0 and satisfies the invariant |
| MobileGame.Move | mobile_tetris/game.js:417-424 | a move shifts the column by the direction iff the shifted piece does not collide, and changes nothing otherwise |
| MobileGame.MoveBack | mobile_tetris/game.js:417-424 | a successful move followed by the opposite move gives back the game |
| MobileGame.Rotate | mobile_tetris/game.js:426-439 | the corrected rotation keeps the invariant and either changes nothing or quarter-turns the matrix |
| MobileGame.Fall | mobile_tetris/game.js:260-263 | the swipe fall keeps column and matrix, every row on the way is collision-free, and one row lower collides |
| MobileGame.SwipeDescent | mobile_tetris/game.js:260-263 | the swipe loop stops exactly at the reference fall position |
| MobileGame.ResetThenSweep | mobile_tetris/game.js:460-528 | `playerReset` then `arenaSweep`: the next piece spawns centred on row 0 of the arena it is given; if it collides there the arena is wiped and the score zeroed (the sweep then finds nothing), otherwise the arena is swept and scores ten per removed row |
| MobileGame.LockAsWritten | mobile_tetris/game.js:404-415 | as written: the spawn is tested against the merged, unswept arena; on a collision the arena is wiped and the score zeroed, otherwise the merged arena is swept and ten points per full row are added |
| MobileGame.LockAsWrittenOverlaps | mobile_tetris/game.js:404-415 | on a concrete game the as-written order leaves the spawned piece overlapping a block the sweep moved down |
| MobileGame.LockAsWrittenSpawn | mobile_tetris/game.js:404-415 | when the spawn fits the merged arena, the as-written order keeps the spawned piece and sweeps the arena |
| MobileGame.Lock | mobile_tetris/game.js:404-415 | corrected lock: merge, sweep and score ten per row, then spawn the stored next piece centred on row 0, drawing the new next piece and bag as `getNextPiece` does; the spawn test uses the swept arena and the invariant holds |
| MobileGame.PlayerDrop | mobile_tetris/game.js:404-415 | corrected order: a timed drop moves one row down when free and locks through `Lock` (sweep before spawn) otherwise, and resets the drop counter |
| MobileGame.SwipeDrop | mobile_tetris/game.js:258-268 | corrected order: a swipe down locks the piece at its fall position through `Lock` and keeps the drop counter |
| MobileGame.SwipeIsDrop | mobile_tetris/game.js:258-268 | the corrected swipe equals the corrected timed drop taken from the resting row, apart from the drop counter |
| MobileGame.PlayerDropAsWritten | mobile_tetris/game.js:404-415 | as written: one row down when free, otherwise `LockAsWritten`; the counter restarts; the arena stays well formed and the score non-negative |
| MobileGame.SwipeDropAsWritten | mobile_tetris/game.js:258-268 | as written: the piece falls to its resting row and then locks in the source's order (merge, `playerReset`, `arenaSweep`), i.e. `LockAsWritten` at the `Fall` position; the arena stays well formed and the drop counter is kept |
| MobileGame.SwipeAsWrittenIsDrop | mobile_tetris/game.js:258-268 | the as-written swipe equals the as-written timed drop taken from the resting row, apart from the drop counter |
| MobileGame.LockOrdersAgree | mobile_tetris/game.js:404-415 | when the merge fills no row, the source's lock order and the corrected one give the same game |
| MobileGame.DropOrdersAgree | mobile_tetris/game.js:404-415 | so the as-written and corrected timed drops differ only on drops that clear a row |
| MobileGame.DropAsWrittenOverlaps | mobile_tetris/game.js:404-415 | on the example game the as-written timed drop leaves the spawned piece overlapping a block |
| MobileGame.Tick | mobile_tetris/game.js:534-543 | the counter accumulates elapsed time and a corrected-order drop happens only once it exceeds 1000 ms; that drop does not depend on the counter's value; below the interval only the counter changes |
| MobileGame.HandleGesture | mobile_tetris/game.js:220-271 | each gesture is its operation: slides move by one column or drop one row, a tap rotates clockwise, a swipe drops to rest; sideways slides and taps never change the arena or the score, and every gesture keeps the invariant (corrected lock order and corrected quarter turn) |
| Leaderboard.TieIsEqualKey | latest/src/leaderboard.js:1 | two entries tie in the ranking iff they have the same score and time |
| Leaderboard.Sort | latest/src/leaderboard.js:1 | sorting yields a permutation of the entries in ranking order |
| Leaderboard.SortStable | latest/src/leaderboard.js:1 | the sort is stable: tied entries keep their relative order |
| Leaderboard.SortSorted | latest/src/leaderboard.js:1 | an already ranked list is left as it is |
| Leaderboard.Load | latest/src/leaderboard.js:1 | a missing stored list loads as empty, a present one as itself |
| Leaderboard.Submitted | latest/src/leaderboard.js:1 | the new entry carries the submitted name, score, time and date, with a missing level stored as 0 |
| Leaderboard.SaveScore | latest/src/leaderboard.js:1 | the saved list is ranked, has min(n+1, 50) entries, and holds only old entries and the new one, all of them when there is room |
| Leaderboard.SaveIntoSorted | latest/src/leaderboard.js:1 | saving into a ranked list inserts the entry after every entry ranked at least as high and cuts to 50 |
| Leaderboard.SaveDropsOnlyLowest | latest/src/leaderboard.js:1 | an entry the cap drops ranks no higher than any entry kept |
| Leaderboard.SaveStable | latest/src/leaderboard.js:1 | with room in the list, the new entry comes after every earlier entry it ties with, whose order is kept |
| Leaderboard.FirstSave | latest/src/leaderboard.js:1 | saving into a missing list gives the one-entry list |
| Leaderboard.NatToStringValue | latest/src/leaderboard.js:1 | decimal rendering of a natural number reads back to the same number |
| Leaderboard.FormatTime | latest/src/leaderboard.js:1 | the text is minutes, a colon, and exactly two second digits |
| Leaderboard.FormatTimeParses | latest/src/leaderboard.js:1 | the text parses back to minutes and seconds below 60 that add up to the whole seconds of the input |
| Leaderboard.FormatTimeSameSecond | latest/src/leaderboard.js:1 | two durations format alike iff they have the same whole seconds |

## Left out

- Rendering, canvas drawing, audio, particles, fireworks, the DOM, the `l` date formatter and the `f` leaderboard renderer: presentation only.
- Timers and `requestAnimationFrame`: elapsed time is an argument of `DesktopGame.Tick` and `MobileGame.Tick`.
- The 2000 ms clear animation and its particles: `checkAndStartClear` removes the rows at once and the animation only draws a snapshot, so it is presentation only.
- Desktop `totalTime` and the call from `handleGameOver` into the leaderboard: bookkeeping outside the game rules.
- Pointer classification (thresholds, swipe velocity): `MobileGame.HandleGesture` takes an already classified gesture.
- Pause and game-over screens of the mobile variant: its `update` loop is modelled without them.
- `localStorage` and JSON: stored data is an `Option` of entries; parsing corrupt text, which throws in the source, is not modelled.
- Scores, times and levels are integers, not JavaScript numbers; NaN and non-numeric stored fields are not modelled.
- Leaderboard.FormatTime: takes a natural number of milliseconds; negative or fractional input is not modelled.
- MobileArena.ArenaSweep: requires a positive width, because with width 0 every row is full and the source's loop never ends.
- MobileGame.Rotate: uses the corrected quarter turn of `MobileArena.PlayerRotateFixed`, not the as-written rotation (see Findings).
- MobileGame.Lock: spawns after the sweep, the corrected order (see Findings); `MobileGame.LockAsWritten` keeps the source's order.
- MobileGame.PlayerDrop: locks through the corrected `MobileGame.Lock`; the source's order is `MobileGame.PlayerDropAsWritten`.
- MobileGame.SwipeDrop: locks through the corrected `MobileGame.Lock`; the source's order is `MobileGame.SwipeDropAsWritten`.
- MobileGame.Tick: drops through the corrected `MobileGame.PlayerDrop`; with the source's order the drop is `MobileGame.PlayerDropAsWritten`.
- MobileGame.HandleGesture: slides and swipes lock in the corrected order, and a tap uses the corrected quarter turn of `MobileGame.Rotate` rather than the as-written `MobileArena.PlayerRotate`, so the invariant can be stated for every gesture.
- DesktopBoard.Rotate: the turned-clockwise property is stated for square shapes only; every desktop shape is square.
- Randomness: `Math.random()` is replaced by caller-supplied rolls and `roll % n`, so no claim about distribution is made.
- The mobile arena is 10×20 in the source; the mobile game's invariant only asks for a rectangle of at least 2 rows and 4 columns, so its results hold for that size and others.

## Findings

| source | as written | input that shows it | evidently intended | confidence | as-written member | corrected member |
|---|---|---|---|---|---|---|
| mobile_tetris/game.js:426-457 | `rotate` transposes only the leading square block, so a 2×3 piece is not turned; when no kick fits, turning back the other way does not restore the matrix | T piece `[[1,1,1],[0,1,0]]` at (0,0) on arena `[[0,0,0,5],[5,0,5,5]]`, direction 1: the piece ends as `[[0,1,1],[1,0,1]]`, overlapping the arena | a quarter turn of the rectangle, and an unchanged piece when no kick fits | not executed | MobileArena.PlayerRotateTeeAsWritten | MobileArena.PlayerRotateFixed |
| mobile_tetris/game.js:404-415 | `playerDrop` calls `playerReset` before `arenaSweep`, so the spawn test runs on the unswept arena and the sweep can then move a block under the new piece | `MobileGame.LOCK_EXAMPLE`: the S piece spawns at column 1 above a block that the sweep moves down into its cells | sweep first, then spawn and test for overlap | not executed | MobileGame.LockAsWrittenOverlaps | MobileGame.Lock |

=== FILE: desktop_board.dfy ===
/**
 * The desktop variant's `Board` and `Piece` (latest/src/main.js): a 20-row,
 * 10-column grid of cells 0..7, the seven square tetromino shapes, the
 * validity test, the copying clockwise rotation, freezing a landed piece,
 * and the full-row detection and compaction used when lines are cleared.
 */
module DesktopBoard {
  import opened Matrix

  const COLS: int := 10
  const ROWS: int := 20

  /** `SHAPES[t]`: the spawn orientation of tetromino type t. Index 0 of the table is an empty placeholder no piece uses. */
  function Shapes(t: int): Grid {
    if t == 1 then [[0, 0, 0, 0], [1, 1, 1, 1], [0, 0, 0, 0], [0, 0, 0, 0]]
    else if t == 2 then [[2, 0, 0], [2, 2, 2], [0, 0, 0]]
    else if t == 3 then [[0, 0, 3], [3, 3, 3], [0, 0, 0]]
    else if t == 4 then [[4, 4], [4, 4]]
    else if t == 5 then [[0, 5, 5], [5, 5, 0], [0, 0, 0]]
    else if t == 6 then [[0, 6, 0], [6, 6, 6], [0, 0, 0]]
    else if t == 7 then [[7, 7, 0], [0, 7, 7], [0, 0, 0]]
    else []
  }

  /** A falling piece: its type (1..7, the colour index), its shape, and the grid position of the shape's top-left cell. */
  datatype Piece = Piece(typeId: int, shape: Grid, x: int, y: int)

  /** A board as `Board.getEmptyGrid` builds it and as every later operation keeps it. */
  predicate WellFormed(g: Grid) {
    Dims(g, ROWS, COLS)
  }

  function EmptyGrid(): (g: Grid)
    ensures WellFormed(g)
    ensures forall r, c :: 0 <= r < ROWS && 0 <= c < COLS ==> g[r][c] == 0
  {
    ZeroRows(ROWS, COLS)
  }

  /** `isInsideWalls`: note the bottom test is `y <= ROWS`, not `y < ROWS`. */
  predicate InsideWalls(x: int, y: int) {
    x >= 0 && x < COLS && y <= ROWS
  }

  /** `notOccupied`: `grid[y] && grid[y][x] === 0`, false for a missing row or column. */
  predicate NotOccupied(g: Grid, x: int, y: int) {
    0 <= y < |g| && 0 <= x < |g[y]| && g[y][x] == 0
  }

  /** `valid(p)`: every non-zero shape cell is inside the walls and on an empty grid cell. */
  predicate Valid(g: Grid, p: Piece) {
    forall dy, dx :: 0 <= dy < |p.shape| && 0 <= dx < |p.shape[dy]| && p.shape[dy][dx] != 0 ==>
      InsideWalls(p.x + dx, p.y + dy) && NotOccupied(g, p.x + dx, p.y + dy)
  }

  /**
   * On a well-formed board the wall test's `y <= ROWS` is tightened by the
   * occupancy test: a piece is valid exactly when every non-zero cell lands
   * at 0 <= x < COLS and 0 <= y < ROWS on a cell holding 0.
   */
  lemma ValidExactly(g: Grid, p: Piece)
    requires WellFormed(g)
    ensures Valid(g, p) <==>
      forall dy, dx :: 0 <= dy < |p.shape| && 0 <= dx < |p.shape[dy]| && p.shape[dy][dx] != 0 ==>
        0 <= p.x + dx < COLS && 0 <= p.y + dy < ROWS && g[p.y + dy][p.x + dx] == 0
  {
  }

  /** A piece whose every non-zero cell sits on a grid cell (what `freeze` needs to write it). */
  predicate OnGrid(g: Grid, p: Piece) {
    Lands(g, p.shape, p.x, p.y, true)
  }

  lemma ValidIsOnGrid(g: Grid, p: Piece)
    requires Valid(g, p)
    ensures OnGrid(g, p)
  {
  }

  /**
   * `rotate(p)`: a deep copy whose shape is the swap-loop transpose with every
   * row then reversed. For a square shape this is the clockwise quarter turn;
   * the position and type are kept and the cells are only permuted.
   */
  function Rotate(p: Piece): (r: Piece)
    requires Wide(p.shape)
    ensures r.typeId == p.typeId && r.x == p.x && r.y == p.y
    ensures |r.shape| == |p.shape|
    ensures Cells(r.shape) == Cells(p.shape)
    ensures Square(p.shape) ==> TurnedCw(r.shape, p.shape)
  {
    ClockwiseSquare(p.shape);
    p.(shape := Clockwise(p.shape))
  }

  /** `b` is `a` turned by half: cell (i, j) of b is cell (n-1-i, n-1-j) of a. */
  predicate HalfOf(b: Grid, a: Grid) {
    Square(a) && Square(b) && |a| == |b| &&
    forall i, j :: 0 <= i < |a| && 0 <= j < |a| ==> b[i][j] == a[|a| - 1 - i][|a| - 1 - j]
  }

  lemma HalfHalf(a: Grid, b: Grid, c: Grid)
    requires HalfOf(b, a) && HalfOf(c, b)
    ensures c == a
  {
    var n := |a|;
    forall i | 0 <= i < n
      ensures c[i] == a[i]
    {
      assert |c[i]| == n && |a[i]| == n;
      forall j | 0 <= j < n
        ensures c[i][j] == a[i][j]
      {
        assert c[i][j] == b[n - 1 - i][n - 1 - j];
      }
    }
  }

  /** Two clockwise quarter turns make a half turn. */
  lemma QuarterQuarter(a: Grid, b: Grid, c: Grid)
    requires TurnedCw(b, a) && TurnedCw(c, b)
    ensures HalfOf(c, a)
  {
    var n := |a|;
    forall i, j | 0 <= i < n && 0 <= j < n
      ensures c[i][j] == a[n - 1 - i][n - 1 - j]
    {
      assert c[i][j] == b[n - 1 - j][i];
    }
  }

  /** Two rotations of a square shape turn it by half. */
  lemma HalfTurn(p: Piece)
    requires Square(p.shape)
    ensures HalfOf(Rotate(Rotate(p)).shape, p.shape)
  {
    var r1 := Rotate(p);
    var r2 := Rotate(r1);
    QuarterQuarter(p.shape, r1.shape, r2.shape);
  }

  /** Every entry of SHAPES is square, so four rotations restore any piece of the table. */
  lemma RotateFourTimes(p: Piece)
    requires Square(p.shape)
    ensures Rotate(Rotate(Rotate(Rotate(p)))) == p
  {
    HalfTurn(p);
    var r2 := Rotate(Rotate(p));
    HalfTurn(r2);
    var r4 := Rotate(Rotate(r2));
    HalfHalf(p.shape, r2.shape, r4.shape);
  }

  /** Every table entry is square, of size 2..4. */
  lemma ShapesSquare(t: int)
    requires 1 <= t <= 7
    ensures Square(Shapes(t)) && 2 <= |Shapes(t)| <= 4
  {
  }

  /** Every table entry holds its own type value, so it has an occupied cell. */
  lemma ShapesHoldType(t: int)
    requires 1 <= t <= 7
    ensures t in Cells(Shapes(t))
  {
    var s := Shapes(t);
    var i, j := if t == 1 then 1 else 0, if t == 3 then 2 else if t == 5 || t == 6 then 1 else 0;
    assert s[i][j] == t;
    CellIn(s, i, j);
  }

  /**
   * `freeze(p)`: exactly the cells under p's positive shape cells take those
   * values, and every other cell of the board is unchanged.
   */
  function Freeze(g: Grid, p: Piece): (r: Grid)
    requires OnGrid(g, p)
    ensures SameShape(r, g)
    ensures forall i, j :: 0 <= i < |g| && 0 <= j < |g[i]| ==>
      r[i][j] == (if Covers(p.shape, p.x, p.y, i, j, true) then p.shape[i - p.y][j - p.x] else g[i][j])
  {
    Stamp(g, p.shape, p.x, p.y, true)
  }

  /** The row test of `checkAndStartClear`: every cell is greater than 0. */
  predicate Full(row: seq<int>) {
    forall c :: 0 <= c < |row| ==> row[c] > 0
  }

  predicate NoFullRow(g: Grid) {
    forall r :: 0 <= r < |g| ==> !Full(g[r])
  }

  predicate Increasing(s: seq<int>) {
    forall a, b :: 0 <= a < b < |s| ==> s[a] < s[b]
  }

  /**
   * Row detection over rows 0..n-1: the indices of exactly the full rows,
   * collected top to bottom.
   */
  function FullRowsBelow(g: Grid, n: nat): (ys: seq<int>)
    requires n <= |g|
    ensures Increasing(ys)
    ensures forall k :: 0 <= k < |ys| ==> 0 <= ys[k] < n
    ensures forall r :: 0 <= r < n ==> (r in ys <==> Full(g[r]))
  {
    if n == 0 then []
    else FullRowsBelow(g, n - 1) + (if Full(g[n - 1]) then [n - 1] else [])
  }

  function FullRows(g: Grid): (ys: seq<int>)
    ensures Increasing(ys)
    ensures forall k :: 0 <= k < |ys| ==> 0 <= ys[k] < |g|
    ensures forall r :: 0 <= r < |g| ==> (r in ys <==> Full(g[r]))
  {
    FullRowsBelow(g, |g|)
  }

  /** `grid.filter((row, index) => !lines.includes(index))`, for rows from index i on. */
  function KeepRows(g: Grid, lines: seq<int>, i: nat): (r: Grid)
    requires i <= |g|
    decreases |g| - i
  {
    if i == |g| then []
    else (if i in lines then [] else [g[i]]) + KeepRows(g, lines, i + 1)
  }

  /** The non-full rows of g, top to bottom: the reference for what compaction keeps. */
  function NonFull(g: Grid): Grid {
    if |g| == 0 then [] else (if Full(g[0]) then [] else [g[0]]) + NonFull(g[1..])
  }

  function CountFull(g: Grid): nat {
    if |g| == 0 then 0 else (if Full(g[0]) then 1 else 0) + CountFull(g[1..])
  }

  lemma {:induction false} KeepFullRows(g: Grid, lines: seq<int>, i: nat)
    requires i <= |g|
    requires forall r :: 0 <= r < |g| ==> (r in lines <==> Full(g[r]))
    ensures KeepRows(g, lines, i) == NonFull(g[i..])
    ensures |KeepRows(g, lines, i)| + CountFull(g[i..]) == |g| - i
    decreases |g| - i
  {
    if i < |g| {
      KeepFullRows(g, lines, i + 1);
      assert g[i..][1..] == g[i + 1..];
    }
  }

  lemma {:induction false} NonFullHasNoFull(g: Grid)
    ensures NoFullRow(NonFull(g))
    ensures forall k :: 0 <= k < |NonFull(g)| ==> NonFull(g)[k] in g
    decreases |g|
  {
    if |g| > 0 {
      NonFullHasNoFull(g[1..]);
      var rest := NonFull(g[1..]);
      var head := if Full(g[0]) then [] else [g[0]];
      forall k | 0 <= k < |NonFull(g)|
        ensures NonFull(g)[k] in g && !Full(NonFull(g)[k])
      {
        if k >= |head| {
          assert NonFull(g)[k] == rest[k - |head|];
          assert rest[k - |head|] in g[1..];
        }
      }
    }
  }

  /** `while (newGrid.length < ROWS) newGrid.unshift(Array(COLS).fill(0))`. */
  function PadTop(g: Grid): (r: Grid)
    ensures |g| < ROWS ==> r == ZeroRows(ROWS - |g|, COLS) + g
    ensures |g| >= ROWS ==> r == g
    decreases ROWS - |g|
  {
    if |g| < ROWS then PadTop([ZeroRow(COLS)] + g) else g
  }

  /**
   * `finalizeClear`'s grid step applied to the rows `FullRows` reports: the
   * survivors keep their relative order, there are again ROWS rows, one
   * empty row on top per removed row, and no full row is left.
   */
  function Compact(g: Grid): (r: Grid)
    requires WellFormed(g)
    ensures WellFormed(r)
    ensures r == ZeroRows(CountFull(g), COLS) + NonFull(g)
    ensures NoFullRow(r)
  {
    var lines := FullRows(g);
    KeepFullRows(g, lines, 0);
    assert g[0..] == g;
    NonFullHasNoFull(g);
    NonFullRows(g);
    PaddedRows(NonFull(g), CountFull(g));
    PadTop(KeepRows(g, lines, 0))
  }

  /** The rows `NonFull` keeps are rows of a well-formed grid. */
  lemma NonFullRows(g: Grid)
    requires WellFormed(g)
    ensures forall k :: 0 <= k < |NonFull(g)| ==> |NonFull(g)[k]| == COLS
  {
    NonFullHasNoFull(g);
    forall k | 0 <= k < |NonFull(g)|
      ensures |NonFull(g)[k]| == COLS
    {
      var row := NonFull(g)[k];
      var y :| 0 <= y < |g| && g[y] == row;
    }
  }

  /** n empty rows on top of ROWS - n non-full rows of COLS cells: a well-formed grid with no full row. */
  lemma PaddedRows(kept: Grid, n: nat)
    requires |kept| + n == ROWS && NoFullRow(kept)
    requires forall k :: 0 <= k < |kept| ==> |kept[k]| == COLS
    ensures WellFormed(ZeroRows(n, COLS) + kept) && NoFullRow(ZeroRows(n, COLS) + kept)
  {
    var r := ZeroRows(n, COLS) + kept;
    forall k | 0 <= k < |r|
      ensures !Full(r[k]) && |r[k]| == COLS
    {
      if k < n {
        assert r[k][0] == 0;
      } else {
        assert r[k] == kept[k - n];
      }
    }
  }

  /** The classic line table `[0, 40, 100, 300, 1200]`, defined for 0..4 cleared lines. */
  function LineScore(n: int): (s: int)
    requires 0 <= n <= 4
    ensures s >= 0 && (n > 0 <==> s > 0)
  {
    [0, 40, 100, 300, 1200][n]
  }

  /** Points for clearing n lines at a level: `lineScores[n] * (level + 1)`. */
  function ClearScore(n: int, level: int): (s: int)
    requires 0 <= n <= 4 && level >= 0
    ensures s >= LineScore(n)
    ensures n == 0 ==> s == 0
  {
    LineScore(n) * (level + 1)
  }
}

=== FILE: desktop_game.dfy ===
/**
 * The desktop variant's `Game` rules (latest/src/main.js): movement
 * transforms, automatic and hard drops, the ghost projection, the two-piece
 * queue, line clearing with classic scoring, level and drop-interval
 * formulas, pausing and the two game-over checks.
 *
 * `Math.random` in `randomizeTetrominoType` is replaced by supplied rolls:
 * a roll r spawns type r % 7 + 1. Rendering, audio, particles, fireworks,
 * the wall clock and the leaderboard call in `handleGameOver` are not part
 * of this module; entering game over is the `over` flag.
 */
module DesktopGame {
  import opened Matrix
  import opened DesktopBoard

  /** Keys `handleInput` reacts to; `Pause` stands for both "p" and Escape. */
  datatype Key = Left | Right | Down | Up | Space | Pause | Enter | Other

  /**
   * The simulation state of a `Game`: board, active piece, preview queue,
   * score, cleared lines, level, the wheel offset, the drop interval
   * (`time.level`, in ms), and the pause and game-over flags.
   */
  datatype Game = Game(
    board: Grid,
    piece: Piece,
    queue: seq<Piece>,
    score: int,
    lines: int,
    level: int,
    offset: int,
    interval: int,
    paused: bool,
    over: bool)

  // ----- pieces and the queue -----

  /** `Piece.spawn`: a uniformly chosen type in 1..7 with its table shape, at x = 3, y = 0. */
  function Spawn(roll: nat): (p: Piece)
    ensures 1 <= p.typeId <= 7
    ensures p.shape == Shapes(p.typeId) && p.x == 3 && p.y == 0
  {
    var t := roll % 7 + 1;
    Piece(t, Shapes(t), 3, 0)
  }

  /** A piece exactly as `spawn` leaves it. */
  predicate Spawned(p: Piece) {
    1 <= p.typeId <= 7 && p.shape == Shapes(p.typeId) && p.x == 3 && p.y == 0
  }

  /** The piece result of `getNextPiece`, the queue it leaves, and the rolls it did not use. */
  datatype Draw = Draw(piece: Piece, queue: seq<Piece>, rest: seq<nat>)

  /** Rolls `getNextPiece` consumes for a queue of length n: refill to two, then one replacement. */
  function RollsNeeded(n: nat): nat {
    (if n < 2 then 2 - n else 0) + 1
  }

  /**
   * The refill loop of `getNextPiece`: new pieces are pushed until the queue
   * holds two. It runs at most twice, so the three cases are written out.
   */
  function Fill(q: seq<Piece>, rolls: seq<nat>): (r: (seq<Piece>, seq<nat>))
    requires |rolls| >= RollsNeeded(|q|)
    ensures |r.0| == (if |q| < 2 then 2 else |q|) && r.0[..|q|] == q
    ensures forall k :: |q| <= k < |r.0| ==> r.0[k] == Spawn(rolls[k - |q|])
    ensures r.1 == rolls[RollsNeeded(|q|) - 1..]
  {
    if |q| >= 2 then (q, rolls)
    else if |q| == 1 then (q + [Spawn(rolls[0])], rolls[1..])
    else ([Spawn(rolls[0]), Spawn(rolls[1])], rolls[2..])
  }

  /**
   * `getNextPiece`: the front of the (refilled) queue is taken and one new
   * piece is pushed at the back, so the queue is first in, first out and a
   * queue of at most two pieces is left holding exactly two.
   */
  function NextPiece(q: seq<Piece>, rolls: seq<nat>): (d: Draw)
    requires |rolls| >= RollsNeeded(|q|)
    ensures |q| > 0 ==> d.piece == q[0]
    ensures |q| == 0 ==> d.piece == Spawn(rolls[0])
    ensures |q| <= 2 ==> |d.queue| == 2
    ensures |q| >= 2 ==> d.queue == q[1..] + [Spawn(rolls[0])]
    ensures d.queue[|d.queue| - 1] == Spawn(rolls[RollsNeeded(|q|) - 1])
    ensures d.rest == rolls[RollsNeeded(|q|)..]
    ensures (forall k :: 0 <= k < |q| ==> Spawned(q[k])) ==>
      Spawned(d.piece) && forall k :: 0 <= k < |d.queue| ==> Spawned(d.queue[k])
  {
    var (full, rest) := Fill(q, rolls);
    Draw(full[0], full[1..] + [Spawn(rest[0])], rest[1..])
  }

  // ----- the moves table -----

  /** The keys with an entry in `moves`. */
  predicate IsMove(k: Key) {
    k == Left || k == Right || k == Down || k == Up || k == Space
  }

  /** `moves[k](p)`: a shift by one column or row, or `board.rotate`. */
  function Moved(k: Key, p: Piece): (r: Piece)
    requires IsMove(k) && (k == Up ==> Wide(p.shape))
    ensures k != Up ==> r.typeId == p.typeId && r.shape == p.shape
    ensures k == Left ==> r.x == p.x - 1 && r.y == p.y
    ensures k == Right ==> r.x == p.x + 1 && r.y == p.y
    ensures (k == Down || k == Space) ==> r.x == p.x && r.y == p.y + 1
    ensures k == Up ==> r.typeId == p.typeId && r.x == p.x && r.y == p.y && Cells(r.shape) == Cells(p.shape)
    ensures k == Up && Square(p.shape) ==> TurnedCw(r.shape, p.shape)
  {
    match k
    case Left => p.(x := p.x - 1)
    case Right => p.(x := p.x + 1)
    case Up => Rotate(p)
    case _ => p.(y := p.y + 1)
  }

  function Lower(p: Piece): Piece {
    p.(y := p.y + 1)
  }

  // ----- ghost and hard drop -----

  lemma ValidAbove(g: Grid, p: Piece)
    requires Valid(g, p) && HasCell(p.shape)
    ensures p.y < |g|
  {
    var dy, dx :| 0 <= dy < |p.shape| && 0 <= dx < |p.shape[dy]| && p.shape[dy][dx] != 0;
  }

  /**
   * `getGhostPosition`: the piece moved down while the next row down is
   * valid. Same x and shape, never higher, every row passed on the way is
   * valid, one step further down is not, and it is valid when the piece is.
   */
  function Ghost(g: Grid, p: Piece): (r: Piece)
    requires HasCell(p.shape)
    ensures r.typeId == p.typeId && r.shape == p.shape && r.x == p.x && r.y >= p.y
    ensures !Valid(g, Lower(r))
    ensures forall k :: p.y < k <= r.y ==> Valid(g, p.(y := k))
    ensures Valid(g, p) ==> Valid(g, r)
    decreases |g| - p.y
  {
    if Valid(g, Lower(p)) then
      ValidAbove(g, Lower(p));
      Ghost(g, Lower(p))
    else p
  }

  /**
   * The hard-drop branch of `handleInput`: starting from one row down, the
   * piece follows while the candidate is valid. It lands where the ghost is.
   */
  method HardDropDescent(g: Grid, piece: Piece) returns (landed: Piece)
    requires HasCell(piece.shape)
    ensures landed == Ghost(g, piece)
  {
    landed := piece;
    var p := Lower(landed);
    while Valid(g, p)
      invariant p == Lower(landed)
      invariant landed.shape == piece.shape
      invariant Ghost(g, landed) == Ghost(g, piece)
      decreases |g| - landed.y
    {
      ValidAbove(g, p);
      landed := p;
      p := Lower(landed);
    }
  }

  // ----- level and speed -----

  /** `calculateBaseSpeed`: 1000 ms at level 0, 50 ms faster per level, never below 100 ms. */
  function BaseSpeed(level: int): (ms: int)
    ensures ms >= 100
    ensures level >= 0 ==> ms <= 1000
    ensures level <= 18 ==> ms == 1000 - 50 * level
    ensures level >= 18 ==> ms == 100
  {
    if 1000 - level * 50 > 100 then 1000 - level * 50 else 100
  }

  /** `updateSpeed`: the interval is the base speed plus the wheel offset, floored at 50 ms. */
  function Interval(level: int, offset: int): (ms: int)
    ensures ms >= 50
    ensures ms >= BaseSpeed(level) + offset
    ensures BaseSpeed(level) + offset >= 50 ==> ms == BaseSpeed(level) + offset
    ensures BaseSpeed(level) + offset <= 50 ==> ms == 50
  {
    if BaseSpeed(level) + offset > 50 then BaseSpeed(level) + offset else 50
  }

  /** A higher level never gives a longer interval. */
  lemma IntervalMonotone(l1: int, l2: int, offset: int)
    requires l1 <= l2
    ensures Interval(l2, offset) <= Interval(l1, offset)
  {
  }

  /** Ten cleared lines at wheel offset 0 give a 500 ms interval. */
  lemma IntervalAtLevelTen()
    ensures Interval(10, 0) == 500 && Interval(0, 0) == 1000
  {
  }

  // ----- the game invariant -----

  /** The active piece has its table shape's type, side length and multiset of cells, as every rotation of it does. */
  predicate PieceOk(p: Piece) {
    1 <= p.typeId <= 7 && Square(p.shape) && |p.shape| == |Shapes(p.typeId)| &&
    Cells(p.shape) == Cells(Shapes(p.typeId))
  }

  lemma SpawnedOk(p: Piece)
    requires Spawned(p)
    ensures PieceOk(p)
  {
    ShapesSquare(p.typeId);
  }

  lemma PieceOkHasCell(p: Piece)
    requires PieceOk(p)
    ensures HasCell(p.shape) && 2 <= |p.shape| <= 4
  {
    ShapesHoldType(p.typeId);
    ShapesSquare(p.typeId);
    var i, j := CellAt(p.shape, p.typeId);
  }

  /**
   * What holds between any two events: a well-formed board, a rotated table
   * piece, two spawned pieces waiting, level equal to the cleared lines, the
   * interval given by the formula, and, while the game runs, a valid piece on
   * a board without full rows.
   */
  predicate Inv(g: Game) {
    && WellFormed(g.board)
    && PieceOk(g.piece)
    && |g.queue| == 2 && Spawned(g.queue[0]) && Spawned(g.queue[1])
    && g.lines >= 0 && g.level == g.lines && g.score >= 0
    && g.interval == Interval(g.level, g.offset)
    && (!g.over ==> Valid(g.board, g.piece) && NoFullRow(g.board))
  }

  lemma SpawnValidOnEmpty(p: Piece)
    requires Spawned(p)
    ensures Valid(EmptyGrid(), p)
  {
    ShapesSquare(p.typeId);
  }

  // ----- at most four rows can fill at once -----

  lemma {:induction false} IncreasingWithin(s: seq<int>, a: int, n: nat)
    requires Increasing(s)
    requires forall k :: 0 <= k < |s| ==> a <= s[k] < a + n
    ensures |s| <= n
    decreases n
  {
    if |s| > 0 {
      assert s[0] >= a;
      forall k | 0 <= k < |s[1..]|
        ensures a + 1 <= s[1..][k] < a + 1 + (n - 1)
      {
        assert s[1..][k] == s[k + 1] > s[0];
      }
      IncreasingWithin(s[1..], a + 1, n - 1);
    }
  }

  /**
   * Freezing a valid piece onto a board without full rows can only fill rows
   * the piece's shape spans, so at most |shape| rows are full afterwards.
   */
  lemma FreezeFillsAtMostShapeRows(g: Grid, p: Piece)
    requires WellFormed(g) && NoFullRow(g) && Valid(g, p)
    ensures OnGrid(g, p)
    ensures |FullRows(Freeze(g, p))| <= |p.shape|
  {
    ValidIsOnGrid(g, p);
    var f := Freeze(g, p);
    var ys := FullRows(f);
    forall k | 0 <= k < |ys|
      ensures p.y <= ys[k] < p.y + |p.shape|
    {
      var r := ys[k];
      assert r in ys;
      assert Full(f[r]);
      assert !Full(g[r]);
      var c :| 0 <= c < |g[r]| && g[r][c] <= 0;
      assert Covers(p.shape, p.x, p.y, r, c, true);
    }
    IncreasingWithin(ys, p.y, |p.shape|);
  }

  // ----- transitions -----

  /** `grid[0].some(val => val > 0)`: the first game-over test. */
  predicate TopOccupied(b: Grid)
    requires |b| > 0
  {
    exists c :: 0 <= c < |b[0]| && b[0][c] > 0
  }

  /** `this.piece = this.getNextPiece(); if (!this.board.valid(this.piece)) handleGameOver()`. */
  function SpawnNext(g: Game, rolls: seq<nat>): (r: Game)
    requires |g.queue| == 2 && |rolls| >= 1
    ensures r.piece == g.queue[0] && r.queue == [g.queue[1], Spawn(rolls[0])]
    ensures r.over <==> (g.over || !Valid(g.board, r.piece))
    ensures r.board == g.board && r.score == g.score && r.lines == g.lines && r.level == g.level
    ensures r.offset == g.offset && r.interval == g.interval && r.paused == g.paused
  {
    var d := NextPiece(g.queue, rolls);
    g.(piece := d.piece, queue := d.queue, over := g.over || !Valid(g.board, d.piece))
  }

  /** `checkLevel`: the level becomes the cleared line count when that is larger, and the speed follows. */
  function CheckLevel(g: Game): (r: Game)
    ensures r.level == (if g.lines > g.level then g.lines else g.level)
    ensures r.level >= g.level
    ensures g.lines > g.level ==> r.interval == Interval(r.level, g.offset)
    ensures g.lines <= g.level ==> r.interval == g.interval
    ensures r == g.(level := r.level, interval := r.interval)
  {
    if g.lines > g.level then g.(level := g.lines, interval := Interval(g.lines, g.offset)) else g
  }

  /**
   * `finalizeClear` with the rows `checkAndStartClear` found: the board is
   * compacted, n cleared rows score `[0,40,100,300,1200][n] * (level + 1)`,
   * the line count grows by n, the level catches up, and the next piece is
   * taken from the queue.
   */
  function FinalizeClear(g: Game, rolls: seq<nat>): (r: Game)
    requires WellFormed(g.board) && |g.queue| == 2 && |rolls| >= 1 && g.level >= 0
    requires 0 < |FullRows(g.board)| <= 4
    ensures r.board == Compact(g.board) && NoFullRow(r.board)
    ensures r.score == g.score + ClearScore(|FullRows(g.board)|, g.level)
    ensures r.lines == g.lines + |FullRows(g.board)|
    ensures r.level == (if r.lines > g.level then r.lines else g.level)
    ensures r.piece == g.queue[0] && r.queue == [g.queue[1], Spawn(rolls[0])]
    ensures r.over <==> (g.over || !Valid(r.board, r.piece))
  {
    var n := |FullRows(g.board)|;
    var cleared := g.(board := Compact(g.board), score := g.score + ClearScore(n, g.level), lines := g.lines + n);
    SpawnNext(CheckLevel(cleared), rolls)
  }

  /** `checkAndStartClear`: clear when some row is full, otherwise just take the next piece. */
  function CheckAndStartClear(g: Game, rolls: seq<nat>): (r: Game)
    requires WellFormed(g.board) && |g.queue| == 2 && |rolls| >= 1 && g.level >= 0
    requires |FullRows(g.board)| <= 4
    ensures WellFormed(r.board) && NoFullRow(r.board)
    ensures r.piece == g.queue[0] && r.queue == [g.queue[1], Spawn(rolls[0])]
    ensures r.over <==> (g.over || !Valid(r.board, r.piece))
    ensures r.score == g.score + ClearScore(|FullRows(g.board)|, g.level)
    ensures r.lines == g.lines + |FullRows(g.board)|
    ensures |FullRows(g.board)| > 0 ==> r.level == (if r.lines > g.level then r.lines else g.level)
    ensures |FullRows(g.board)| > 0 ==> r.board == Compact(g.board)
    ensures |FullRows(g.board)| == 0 ==> r.board == g.board && r.level == g.level
  {
    if |FullRows(g.board)| > 0 then FinalizeClear(g, rolls)
    else
      assert NoFullRow(g.board) by {
        forall y | 0 <= y < |g.board|
          ensures !Full(g.board[y])
        {
          assert y !in FullRows(g.board);
        }
      }
      SpawnNext(g, rolls)
  }

  /**
   * What follows a failed move down (`drop`'s else branch and the end of a
   * hard drop): freeze; if row 0 now holds a block the game is over and
   * nothing is taken from the queue, otherwise rows are cleared and exactly
   * one piece is taken from the queue, ending the game when it is not valid.
   */
  function Land(g: Game, rolls: seq<nat>): (r: Game)
    requires Inv(g) && !g.over && |rolls| >= 1
    ensures Inv(r)
    ensures OnGrid(g.board, g.piece) && |FullRows(Freeze(g.board, g.piece))| <= 4
    ensures TopOccupied(Freeze(g.board, g.piece)) ==>
      r == g.(board := Freeze(g.board, g.piece), over := true)
    ensures !TopOccupied(Freeze(g.board, g.piece)) ==>
      r.piece == g.queue[0] && r.queue == [g.queue[1], Spawn(rolls[0])]
    ensures !TopOccupied(Freeze(g.board, g.piece)) ==> (r.over <==> !Valid(r.board, r.piece))
    ensures !TopOccupied(Freeze(g.board, g.piece)) ==>
      r.score == g.score + ClearScore(|FullRows(Freeze(g.board, g.piece))|, g.level)
    ensures !TopOccupied(Freeze(g.board, g.piece)) ==>
      r.board == (var b := Freeze(g.board, g.piece); if |FullRows(b)| > 0 then Compact(b) else b)
    ensures r.level >= g.level && r.score >= g.score
  {
    PieceOkHasCell(g.piece);
    FreezeFillsAtMostShapeRows(g.board, g.piece);
    var b := Freeze(g.board, g.piece);
    FrozenWellFormed(g.board, b);
    assert |FullRows(b)| <= 4;
    if TopOccupied(b) then
      var r := g.(board := b, over := true);
      assert Inv(r);
      r
    else
      var r := CheckAndStartClear(g.(board := b), rolls);
      ClearedInv(g, b, rolls, r);
      assert r.score == g.score + ClearScore(|FullRows(b)|, g.level);
      r
  }

  lemma FrozenWellFormed(g: Grid, b: Grid)
    requires WellFormed(g) && SameShape(b, g)
    ensures WellFormed(b)
  {
  }

  lemma ClearedInv(g: Game, b: Grid, rolls: seq<nat>, r: Game)
    requires Inv(g) && !g.over && |rolls| >= 1
    requires WellFormed(b) && |FullRows(b)| <= 4
    requires r == CheckAndStartClear(g.(board := b), rolls)
    ensures Inv(r)
    ensures r.score >= g.score && r.level >= g.level
  {
    SpawnedOk(g.queue[0]);
    var n := |FullRows(b)|;
    assert r.lines == g.lines + n;
    if n > 0 {
      assert r.level == r.lines;
      assert r.interval == Interval(r.level, r.offset);
    }
  }

  /** `drop`: move down one row when that is valid, otherwise land. */
  function Drop(g: Game, rolls: seq<nat>): (r: Game)
    requires Inv(g) && !g.over && |rolls| >= 1
    ensures Inv(r)
    ensures Valid(g.board, Lower(g.piece)) ==> r == g.(piece := Lower(g.piece))
    ensures !Valid(g.board, Lower(g.piece)) ==> r == Land(g, rolls)
  {
    if Valid(g.board, Lower(g.piece)) then g.(piece := Lower(g.piece)) else Land(g, rolls)
  }

  /** The hard-drop branch of `handleInput`: descend to the ghost position, then land at once. */
  function HardDrop(g: Game, rolls: seq<nat>): (r: Game)
    requires Inv(g) && !g.over && |rolls| >= 1
    ensures Inv(r)
    ensures HasCell(g.piece.shape)
    ensures r == Land(g.(piece := Ghost(g.board, g.piece)), rolls)
  {
    PieceOkHasCell(g.piece);
    Land(g.(piece := Ghost(g.board, g.piece)), rolls)
  }

  /** `togglePause`: a no-op once the game is over, otherwise flips the pause flag. */
  function TogglePause(g: Game): (r: Game)
    ensures g.over ==> r == g
    ensures !g.over ==> r.paused != g.paused && r == g.(paused := r.paused)
  {
    if g.over then g else g.(paused := !g.paused)
  }

  /** Toggling twice restores the state; after game over both toggles do nothing. */
  lemma TogglePauseTwice(g: Game)
    ensures TogglePause(TogglePause(g)) == g
  {
  }

  /** `handleWheel`: the offset moves by 50 ms per wheel event and the interval is recomputed. */
  function HandleWheel(g: Game, deltaY: int): (r: Game)
    requires Inv(g)
    ensures Inv(r)
    ensures r.offset == g.offset + 50 || r.offset == g.offset - 50
    ensures deltaY > 0 <==> r.offset > g.offset
    ensures r == g.(offset := r.offset, interval := r.interval)
  {
    var o := g.offset + (if deltaY > 0 then 50 else -50);
    g.(offset := o, interval := Interval(g.level, o))
  }

  /** `reset`: an empty board, zero counters, a 1000 ms interval, and the first piece from a fresh queue. */
  function Reset(rolls: seq<nat>): (r: Game)
    requires |rolls| >= 3
    ensures Inv(r) && !r.over && !r.paused
    ensures r.score == 0 && r.lines == 0 && r.level == 0 && r.interval == 1000
    ensures r.piece == Spawn(rolls[0]) && r.queue == [Spawn(rolls[1]), Spawn(rolls[2])]
  {
    var d := NextPiece([], rolls);
    NextPieceEmpty(rolls);
    EmptyNoFullRow();
    SpawnValidOnEmpty(d.piece);
    SpawnedOk(d.piece);
    Game(EmptyGrid(), d.piece, d.queue, 0, 0, 0, 0, 1000, false, false)
  }

  /** From an empty queue the first three rolls give the piece and then the two queued pieces, in order. */
  lemma NextPieceEmpty(rolls: seq<nat>)
    requires |rolls| >= 3
    ensures NextPiece([], rolls).piece == Spawn(rolls[0])
    ensures NextPiece([], rolls).queue == [Spawn(rolls[1]), Spawn(rolls[2])]
  {
    var full := Fill([], rolls).0;
    assert full == [Spawn(rolls[0]), Spawn(rolls[1])];
  }

  /** The empty board has no full row. */
  lemma EmptyNoFullRow()
    ensures NoFullRow(EmptyGrid())
  {
    var g := EmptyGrid();
    forall r | 0 <= r < |g|
      ensures !Full(g[r])
    {
      assert g[r][0] == 0;
    }
  }

  /**
   * `handleInput`: after game over only Enter (a restart) does anything;
   * the pause keys toggle; while paused nothing moves; a hard drop lands at
   * once; any other move is applied only when the moved piece is valid.
   */
  function HandleInput(g: Game, k: Key, rolls: seq<nat>): (r: Game)
    requires Inv(g) && |rolls| >= 3
    ensures Inv(r)
    ensures g.over && k == Enter ==> r == Reset(rolls)
    ensures g.over && k != Enter ==> r == g
    ensures !g.over && k == Pause ==> r == TogglePause(g)
    ensures !g.over && g.paused && k != Pause ==> r == g
    ensures !g.over && !g.paused && IsMove(k) && k != Space ==>
      r.board == g.board && r.score == g.score && Valid(r.board, r.piece)
    ensures !g.over && !g.paused && IsMove(k) && k != Space ==>
      (r == g.(piece := Moved(k, g.piece)) <==> Valid(g.board, Moved(k, g.piece)))
    ensures !g.over && !g.paused && IsMove(k) && k != Space && !Valid(g.board, Moved(k, g.piece)) ==>
      r == g
    ensures !g.over && !g.paused && k == Space ==> r == HardDrop(g, rolls)
  {
    if g.over then (if k == Enter then Reset(rolls) else g)
    else if k == Pause then TogglePause(g)
    else if !g.paused && IsMove(k) then
      if k == Space then HardDrop(g, rolls)
      else
        var p := Moved(k, g.piece);
        if Valid(g.board, p) then g.(piece := p) else g
    else g
  }

  /** The drop test of `loop`: nothing while paused, one `drop` once more than the interval has passed. */
  function Tick(g: Game, sinceDrop: int, rolls: seq<nat>): (r: Game)
    requires Inv(g) && !g.over && |rolls| >= 1
    ensures Inv(r)
    ensures g.paused || sinceDrop <= g.interval ==> r == g
    ensures !g.paused && sinceDrop > g.interval ==> r == Drop(g, rolls)
  {
    if g.paused then g else if sinceDrop > g.interval then Drop(g, rolls) else g
  }
}

=== FILE: leaderboard.dfy ===
/**
 * The local leaderboard of the desktop variant (latest/src/leaderboard.js):
 * `d` loads the stored list, `a` saves a finished game's score into it and
 * `u` renders an elapsed time in milliseconds as `m:ss`.
 *
 * Browser storage and JSON are not modelled: the stored list is given as an
 * `Option` (None when nothing is stored) and `a` returns the list it would
 * store. `Date.now()` is the parameter `now`. Scores, times and levels are
 * integers.
 */
module Leaderboard {
  import opened Wrappers

  /** The list is cut to its first 50 entries after every save. */
  const MAX_ENTRIES: nat := 50

  datatype Entry = Entry(name: string, score: int, time: int, level: int, date: int)

  // ----- ranking -----

  /**
   * `a` strictly precedes `b` when the sort comparator (higher score first,
   * then shorter time) orders them; entries with equal score and time tie.
   */
  predicate Before(a: Entry, b: Entry) {
    a.score > b.score || (a.score == b.score && a.time < b.time)
  }

  /** `a` may stand before `b`: `b` does not strictly precede `a`. */
  predicate Ranked(a: Entry, b: Entry) {
    !Before(b, a)
  }

  predicate Sorted(s: seq<Entry>) {
    forall i, j :: 0 <= i < j < |s| ==> Ranked(s[i], s[j])
  }

  /** The sort key; entries with equal keys tie under the comparator. */
  function Key(e: Entry): (int, int) {
    (e.score, e.time)
  }

  lemma TieIsEqualKey(a: Entry, b: Entry)
    ensures (Ranked(a, b) && Ranked(b, a)) <==> Key(a) == Key(b)
  {
  }

  lemma SplitLast(s: seq<Entry>)
    requires |s| > 0
    ensures s == s[..|s| - 1] + [s[|s| - 1]]
  {
  }

  lemma AppendLast(s: seq<Entry>, x: Entry)
    ensures (s + [x])[..|s|] == s && (s + [x])[|s|] == x
  {
  }

  // ----- stable insertion sort -----

  /**
   * Where `x` goes when it arrives after every entry of `t`: in front of the
   * first entry it strictly precedes, so it lands behind every entry it
   * ties with.
   */
  function InsertPos(x: Entry, t: seq<Entry>): (p: nat)
    ensures p <= |t|
    ensures forall i :: 0 <= i < p ==> !Before(x, t[i])
    ensures p < |t| ==> Before(x, t[p])
  {
    if |t| == 0 then 0
    else if Before(x, t[0]) then 0
    else 1 + InsertPos(x, t[1..])
  }

  function Insert(x: Entry, t: seq<Entry>): (r: seq<Entry>)
    ensures |r| == |t| + 1
    ensures multiset(r) == multiset(t) + multiset{x}
  {
    var p := InsertPos(x, t);
    assert t == t[..p] + t[p..];
    t[..p] + [x] + t[p..]
  }

  /** Inserting into a sorted list keeps it sorted. */
  lemma InsertSorted(x: Entry, t: seq<Entry>)
    requires Sorted(t)
    ensures Sorted(Insert(x, t))
  {
    var p := InsertPos(x, t);
    var r := Insert(x, t);
    forall i, j | 0 <= i < j < |r|
      ensures Ranked(r[i], r[j])
    {
      if j < p {
        assert r[i] == t[i] && r[j] == t[j];
      } else if j == p {
        assert r[i] == t[i] && r[j] == x;
      } else if i < p {
        assert r[i] == t[i] && r[j] == t[j - 1];
      } else if i == p {
        assert r[i] == x && r[j] == t[j - 1];
        assert Ranked(t[p], t[j - 1]);
      } else {
        assert r[i] == t[i - 1] && r[j] == t[j - 1];
      }
    }
  }

  /**
   * The sort `a` applies: insertion sort from left to right, which is stable
   * like the engine's `Array.prototype.sort`.
   */
  function Sort(s: seq<Entry>): (r: seq<Entry>)
    ensures |r| == |s|
    ensures Sorted(r)
    ensures multiset(r) == multiset(s)
  {
    if |s| == 0 then []
    else
      var n := |s| - 1;
      SplitLast(s);
      var t := Sort(s[..n]);
      InsertSorted(s[n], t);
      Insert(s[n], t)
  }

  // ----- stability -----

  /** The entries of `s` with key `k`, in their order in `s`. */
  function WithKey(s: seq<Entry>, k: (int, int)): seq<Entry> {
    if |s| == 0 then []
    else WithKey(s[..|s| - 1], k) + (if Key(s[|s| - 1]) == k then [s[|s| - 1]] else [])
  }

  lemma {:induction false} WithKeyAppend(a: seq<Entry>, b: seq<Entry>, k: (int, int))
    ensures WithKey(a + b, k) == WithKey(a, k) + WithKey(b, k)
    decreases |b|
  {
    if |b| == 0 {
      assert a + b == a;
    } else {
      var n := |b| - 1;
      assert (a + b)[..|a + b| - 1] == a + b[..n];
      WithKeyAppend(a, b[..n], k);
    }
  }

  lemma {:induction false} WithKeyNone(s: seq<Entry>, k: (int, int))
    requires forall i :: 0 <= i < |s| ==> Key(s[i]) != k
    ensures WithKey(s, k) == []
  {
    if |s| > 0 {
      WithKeyNone(s[..|s| - 1], k);
    }
  }

  lemma InsertSplit(x: Entry, t: seq<Entry>)
    ensures var p := InsertPos(x, t);
            Insert(x, t) == t[..p] + [x] + t[p..] && t == t[..p] + t[p..]
  {
  }

  /** In a sorted list nothing from the insert position on ties with `x`. */
  lemma TailAfterInsert(x: Entry, t: seq<Entry>)
    requires Sorted(t)
    ensures var b := t[InsertPos(x, t)..];
            forall i :: 0 <= i < |b| ==> Key(b[i]) != Key(x)
  {
    var p := InsertPos(x, t);
    var b := t[p..];
    forall i | 0 <= i < |b|
      ensures Key(b[i]) != Key(x)
    {
      assert b[i] == t[p + i];
      assert Ranked(t[p], t[p + i]);
    }
  }

  lemma WithKeyLast(s: seq<Entry>, x: Entry, k: (int, int))
    ensures WithKey(s + [x], k) == WithKey(s, k) + (if Key(x) == k then [x] else [])
  {
    AppendLast(s, x);
  }

  lemma WithKeySingle(x: Entry, k: (int, int))
    ensures WithKey([x], k) == (if Key(x) == k then [x] else [])
  {
    assert [x][..0] == [];
  }

  /** Splicing `x` between `a` and `b` adds it to its key's entries, behind those of `a`. */
  lemma SpliceWithKey(a: seq<Entry>, x: Entry, b: seq<Entry>, k: (int, int))
    requires Key(x) == k ==> forall i :: 0 <= i < |b| ==> Key(b[i]) != k
    ensures WithKey(a + [x] + b, k) == WithKey(a + b, k) + (if Key(x) == k then [x] else [])
  {
    var own := if Key(x) == k then [x] else [];
    calc {
      WithKey(a + [x] + b, k);
      == { WithKeyAppend(a + [x], b, k); }
      WithKey(a + [x], k) + WithKey(b, k);
      == { WithKeyAppend(a, [x], k); WithKeySingle(x, k); }
      WithKey(a, k) + own + WithKey(b, k);
    }
    WithKeyAppend(a, b, k);
    if Key(x) == k {
      WithKeyNone(b, k);
    }
  }

  /**
   * Inserting `x` into a sorted list leaves the entries of every other key in
   * place and puts `x` behind the entries sharing its key.
   */
  lemma InsertWithKey(x: Entry, t: seq<Entry>, k: (int, int))
    requires Sorted(t)
    ensures WithKey(Insert(x, t), k) == WithKey(t, k) + (if Key(x) == k then [x] else [])
  {
    var p := InsertPos(x, t);
    InsertSplit(x, t);
    TailAfterInsert(x, t);
    SpliceWithKey(t[..p], x, t[p..], k);
  }

  /** The sort is stable: entries with equal score and time keep their order. */
  lemma {:induction false} SortStable(s: seq<Entry>, k: (int, int))
    ensures WithKey(Sort(s), k) == WithKey(s, k)
  {
    if |s| > 0 {
      var n := |s| - 1;
      SortStable(s[..n], k);
      InsertWithKey(s[n], Sort(s[..n]), k);
    }
  }

  lemma SortStep(s: seq<Entry>)
    requires |s| > 0
    ensures Sort(s) == Insert(s[|s| - 1], Sort(s[..|s| - 1]))
  {
  }

  /** An entry that strictly precedes nothing in `t` goes to the end. */
  lemma InsertLast(x: Entry, t: seq<Entry>)
    requires forall i :: 0 <= i < |t| ==> !Before(x, t[i])
    ensures Insert(x, t) == t + [x]
  {
    assert InsertPos(x, t) == |t|;
    assert t[..|t|] == t;
  }

  /** The last entry of a sorted list strictly precedes none of the others. */
  lemma SortedLast(s: seq<Entry>)
    requires Sorted(s) && |s| > 0
    ensures var t := s[..|s| - 1];
            Sorted(t) && forall i :: 0 <= i < |t| ==> !Before(s[|s| - 1], t[i])
  {
    var t := s[..|s| - 1];
    forall i | 0 <= i < |t|
      ensures !Before(s[|s| - 1], t[i])
    {
      assert t[i] == s[i];
      assert Ranked(s[i], s[|s| - 1]);
    }
  }

  /** A list that is already sorted comes out of the sort unchanged. */
  lemma {:induction false} SortSorted(s: seq<Entry>)
    requires Sorted(s)
    ensures Sort(s) == s
  {
    if |s| > 0 {
      var n := |s| - 1;
      var t := s[..n];
      SortedLast(s);
      SortSorted(t);
      SortStep(s);
      InsertLast(s[n], t);
      SplitLast(s);
    }
  }

  // ----- load and save -----

  /** `d`: nothing stored reads as the empty list. */
  function Load(stored: Option<seq<Entry>>): (r: seq<Entry>)
    ensures stored.None? ==> r == []
    ensures stored.Some? ==> r == stored.value
  {
    match stored
    case None => []
    case Some(s) => s
  }

  /** The record `a` pushes: a missing level is stored as 0. */
  function Submitted(name: string, score: int, time: int, level: Option<int>, now: int): (e: Entry)
    ensures e.name == name && e.score == score && e.time == time && e.date == now
    ensures level.None? ==> e.level == 0
    ensures level.Some? ==> e.level == level.value
  {
    Entry(name, score, time, if level.Some? then level.value else 0, now)
  }

  function Min(a: nat, b: nat): nat {
    if a < b then a else b
  }

  lemma PrefixMultiset(s: seq<Entry>, k: nat)
    requires k <= |s|
    ensures multiset(s[..k]) <= multiset(s)
    ensures k == |s| ==> multiset(s[..k]) == multiset(s)
  {
    assert s == s[..k] + s[k..];
  }

  /**
   * `a`: append the new record, sort by score descending then time
   * ascending, and keep the first 50.
   */
  function SaveScore(stored: Option<seq<Entry>>, name: string, score: int, time: int,
                     level: Option<int>, now: int): (r: seq<Entry>)
    ensures |r| == Min(|Load(stored)| + 1, MAX_ENTRIES)
    ensures Sorted(r)
    ensures multiset(r) <= multiset(Load(stored)) + multiset{Submitted(name, score, time, level, now)}
    ensures |Load(stored)| < MAX_ENTRIES ==>
              multiset(r) == multiset(Load(stored)) + multiset{Submitted(name, score, time, level, now)}
  {
    var all := Load(stored) + [Submitted(name, score, time, level, now)];
    var sorted := Sort(all);
    var k := Min(|sorted|, MAX_ENTRIES);
    PrefixMultiset(sorted, k);
    sorted[..k]
  }

  /** What `a` keeps: the first min(n + 1, 50) entries of the sorted list. */
  lemma SaveIsPrefix(stored: Option<seq<Entry>>, name: string, score: int, time: int,
                     level: Option<int>, now: int)
    ensures var all := Load(stored) + [Submitted(name, score, time, level, now)];
            SaveScore(stored, name, score, time, level, now) == Sort(all)[..Min(|all|, MAX_ENTRIES)]
  {
  }

  /** The first save on an empty leaderboard stores just the new record. */
  lemma FirstSave(name: string, score: int, time: int, level: Option<int>, now: int)
    ensures SaveScore(None, name, score, time, level, now) == [Submitted(name, score, time, level, now)]
  {
  }

  /**
   * Saving into a sorted list is an insertion: the new record goes in front
   * of the first entry it beats and behind every entry it ties with, and
   * the list is cut at 50.
   */
  lemma SaveIntoSorted(stored: seq<Entry>, name: string, score: int, time: int,
                       level: Option<int>, now: int)
    requires Sorted(stored)
    ensures var x := Submitted(name, score, time, level, now);
            var p := InsertPos(x, stored);
            SaveScore(Some(stored), name, score, time, level, now)
              == (stored[..p] + [x] + stored[p..])[..Min(|stored| + 1, MAX_ENTRIES)]
  {
    var x := Submitted(name, score, time, level, now);
    var all := stored + [x];
    SaveIsPrefix(Some(stored), name, score, time, level, now);
    AppendLast(stored, x);
    SortStep(all);
    SortSorted(stored);
    InsertSplit(x, stored);
  }

  /** Cutting a sorted list drops nothing that ranks above a kept entry. */
  lemma CutBelow(s: seq<Entry>, m: nat, e: Entry)
    requires Sorted(s) && m <= |s|
    requires e in s && e !in s[..m]
    ensures forall y :: y in s[..m] ==> Ranked(y, e)
  {
    var k :| 0 <= k < |s| && s[k] == e;
    forall y | y in s[..m]
      ensures Ranked(y, e)
    {
      var i :| 0 <= i < m && s[..m][i] == y;
      assert Ranked(s[i], s[k]);
    }
  }

  /** A record that does not make the cut ranks no higher than any kept entry. */
  lemma SaveDropsOnlyLowest(stored: Option<seq<Entry>>, name: string, score: int, time: int,
                            level: Option<int>, now: int, e: Entry)
    requires e in Load(stored) + [Submitted(name, score, time, level, now)]
    requires e !in SaveScore(stored, name, score, time, level, now)
    ensures forall y :: y in SaveScore(stored, name, score, time, level, now) ==> Ranked(y, e)
  {
    var all := Load(stored) + [Submitted(name, score, time, level, now)];
    SaveIsPrefix(stored, name, score, time, level, now);
    assert e in multiset(all);
    CutBelow(Sort(all), Min(|all|, MAX_ENTRIES), e);
  }

  lemma TakeAll(s: seq<Entry>)
    ensures s[..|s|] == s
  {
  }

  /** Sorting after appending `x` puts `x` behind the earlier entries of its key. */
  lemma SortAppendStable(s: seq<Entry>, x: Entry, k: (int, int))
    ensures WithKey(Sort(s + [x]), k) == WithKey(s, k) + (if Key(x) == k then [x] else [])
  {
    SortStable(s + [x], k);
    WithKeyLast(s, x, k);
  }

  /** Saving keeps each tie group in arrival order, the new record last. */
  lemma SaveStable(stored: Option<seq<Entry>>, name: string, score: int, time: int,
                   level: Option<int>, now: int)
    requires |Load(stored)| < MAX_ENTRIES
    ensures var x := Submitted(name, score, time, level, now);
            WithKey(SaveScore(stored, name, score, time, level, now), Key(x))
              == WithKey(Load(stored), Key(x)) + [x]
  {
    var x := Submitted(name, score, time, level, now);
    var all := Load(stored) + [x];
    SaveIsPrefix(stored, name, score, time, level, now);
    TakeAll(Sort(all));
    SortAppendStable(Load(stored), x, Key(x));
  }

  // ----- time formatting -----

  predicate IsDigit(c: char) {
    '0' <= c <= '9'
  }

  predicate AllDigits(s: string) {
    forall i :: 0 <= i < |s| ==> IsDigit(s[i])
  }

  function DigitChar(d: nat): (c: char)
    requires d < 10
    ensures IsDigit(c)
  {
    (48 + d) as char
  }

  function DigitValue(c: char): (d: nat)
    requires IsDigit(c)
    ensures d < 10 && DigitChar(d) == c
  {
    c as int - 48
  }

  /** `n.toString()` for a whole number: decimal digits without leading zeros. */
  function NatToString(n: nat): (s: string)
    ensures |s| >= 1 && AllDigits(s)
    ensures (s[0] == '0') <==> n == 0
    ensures n < 10 <==> |s| == 1
  {
    if n < 10 then [DigitChar(n)]
    else NatToString(n / 10) + [DigitChar(n % 10)]
  }

  /** The number a string of decimal digits denotes. */
  function DigitsValue(s: string): nat
    requires AllDigits(s)
  {
    if |s| == 0 then 0
    else DigitsValue(s[..|s| - 1]) * 10 + DigitValue(s[|s| - 1])
  }

  lemma {:induction false} NatToStringValue(n: nat)
    ensures DigitsValue(NatToString(n)) == n
  {
    if n >= 10 {
      NatToStringValue(n / 10);
      var s := NatToString(n);
      assert s[..|s| - 1] == NatToString(n / 10);
    }
  }

  /** `padStart(width, c)`: pad on the left with `c` up to `width` characters. */
  function PadStart(s: string, width: nat, c: char): (r: string)
    ensures |r| == if |s| < width then width else |s|
    ensures r[|r| - |s|..] == s
    ensures forall i :: 0 <= i < |r| - |s| ==> r[i] == c
  {
    if |s| < width then seq(width - |s|, _ => c) + s else s
  }

  lemma TwoDigitString(n: nat)
    requires 10 <= n < 100
    ensures NatToString(n) == [DigitChar(n / 10), DigitChar(n % 10)]
  {
    assert NatToString(n / 10) == [DigitChar(n / 10)];
  }

  lemma TwoDigitsValue(f: string)
    requires |f| == 2 && AllDigits(f)
    ensures DigitsValue(f) == DigitValue(f[0]) * 10 + DigitValue(f[1])
  {
    var h := f[..1];
    assert h[..0] == [] && h[0] == f[0];
    assert DigitsValue(h) == DigitValue(f[0]);
  }

  /** The seconds field: `toString` of a value below 60, padded to two digits with '0'. */
  function SecondsText(v: nat): (f: string)
    requires v < 60
    ensures |f| == 2 && AllDigits(f) && DigitsValue(f) == v
  {
    var s := NatToString(v);
    if v < 10 then
      assert s == [DigitChar(v)];
      var f := PadStart(s, 2, '0');
      assert f == ['0', DigitChar(v)];
      TwoDigitsValue(f);
      f
    else
      TwoDigitString(v);
      var f := PadStart(s, 2, '0');
      assert f == s;
      TwoDigitsValue(f);
      f
  }

  /** `u`: whole minutes, a colon and the seconds as two digits. */
  function FormatTime(ms: nat): (t: string)
    ensures |t| >= 4 && t[|t| - 3] == ':'
    ensures AllDigits(t[..|t| - 3]) && AllDigits(t[|t| - 2..])
  {
    var secs := ms / 1000;
    var m, s := NatToString(secs / 60), SecondsText(secs % 60);
    var t := m + ":" + s;
    assert t[..|t| - 3] == m;
    assert t[|t| - 2..] == s;
    t
  }

  /** Reads a `m:ss` string back as minutes and seconds. */
  function ParseTime(t: string): Option<(nat, nat)> {
    if |t| >= 4 && t[|t| - 3] == ':' && AllDigits(t[..|t| - 3]) && AllDigits(t[|t| - 2..])
    then Some((DigitsValue(t[..|t| - 3]), DigitsValue(t[|t| - 2..])))
    else None
  }

  /**
   * The formatted time reads back as the whole minutes and the remaining
   * seconds (00 to 59) of the elapsed time.
   */
  lemma FormatTimeParses(ms: nat)
    ensures ParseTime(FormatTime(ms)).Some?
    ensures var (m, s) := ParseTime(FormatTime(ms)).value;
            s < 60 && m * 60 + s == ms / 1000
  {
    var secs := ms / 1000;
    var m, s := NatToString(secs / 60), SecondsText(secs % 60);
    NatToStringValue(secs / 60);
    var t := FormatTime(ms);
    assert t == m + ":" + s;
    assert t[..|t| - 3] == m;
    assert t[|t| - 2..] == s;
  }

  /** Two times print the same exactly when they agree in whole seconds. */
  lemma FormatTimeSameSecond(a: nat, b: nat)
    ensures FormatTime(a) == FormatTime(b) <==> a / 1000 == b / 1000
  {
    FormatTimeParses(a);
    FormatTimeParses(b);
  }
}

=== FILE: matrix.dfy ===
/**
 * Integer matrices shared by both game variants: piece shapes and playing
 * grids are rows of cells, row 0 at the top, cell value 0 meaning empty.
 *
 * Both variants rotate a shape with the same in-place loop: for every row
 * index i and every j < i they swap the cells [i][j] and [j][i], and then
 * reverse either every row or the order of the rows. This module models that
 * swap loop step by step (`TransposeFrom`), gives its closed form
 * (`TransposeBlock`), and proves the two agree and that the loop only
 * permutes cells.
 */
module Matrix {

  type Grid = seq<seq<int>>

  /** Every row of `m` has exactly `w` cells. */
  predicate Rect(m: Grid, w: int) {
    forall i :: 0 <= i < |m| ==> |m[i]| == w
  }

  /** A `rows` by `cols` matrix. */
  predicate Dims(m: Grid, rows: int, cols: int) {
    |m| == rows && Rect(m, cols)
  }

  /** An n-by-n matrix. */
  predicate Square(m: Grid) {
    Rect(m, |m|)
  }

  /** The swap loop only touches existing cells: every row is at least as long as there are rows. */
  predicate Wide(m: Grid) {
    forall i :: 0 <= i < |m| ==> |m[i]| >= |m|
  }

  function ZeroRow(w: nat): (r: seq<int>)
    ensures |r| == w
    ensures forall j :: 0 <= j < w ==> r[j] == 0
  {
    seq(w, _ => 0)
  }

  /** `k` empty rows of width `w`. */
  function ZeroRows(k: nat, w: nat): (g: Grid)
    ensures Dims(g, k, w)
    ensures forall i, j :: 0 <= i < k && 0 <= j < w ==> g[i][j] == 0
  {
    seq(k, _ => ZeroRow(w))
  }

  /** The multiset of every cell value of `m`. */
  function Cells(m: Grid): multiset<int> {
    if |m| == 0 then multiset{} else multiset(m[0]) + Cells(m[1..])
  }

  function Reverse(s: seq<int>): (r: seq<int>)
    ensures |r| == |s|
  {
    seq(|s|, k requires 0 <= k < |s| => s[|s| - 1 - k])
  }

  /** Reverse every row in place (`row.reverse()` on each row). */
  function ReverseEach(m: Grid): (r: Grid)
    ensures |r| == |m|
    ensures forall i :: 0 <= i < |m| ==> |r[i]| == |m[i]|
  {
    seq(|m|, i requires 0 <= i < |m| => Reverse(m[i]))
  }

  /** Reverse the order of the rows (`matrix.reverse()`). */
  function ReverseOrder(m: Grid): (r: Grid)
    ensures |r| == |m|
  {
    seq(|m|, i requires 0 <= i < |m| => m[|m| - 1 - i])
  }

  /** Exchange the cells [i][j] and [j][i]. */
  function Swap(m: Grid, i: nat, j: nat): (r: Grid)
    requires Wide(m) && j < i < |m|
    ensures Wide(r) && |r| == |m|
    ensures forall a :: 0 <= a < |m| ==> |r[a]| == |m[a]|
  {
    var a := m[i][j];
    var b := m[j][i];
    var m1 := m[i := m[i][j := b]];
    m1[j := m1[j][i := a]]
  }

  /**
   * The nested swap loop `for (i = 0; i < n; ++i) for (j = 0; j < i; ++j) swap`,
   * resumed at row i, column j.
   */
  function TransposeFrom(m: Grid, i: nat, j: nat): (r: Grid)
    requires Wide(m) && j <= i
    ensures Wide(r) && |r| == |m|
    ensures forall a :: 0 <= a < |m| ==> |r[a]| == |m[a]|
    decreases |m| - i, i - j
  {
    if i >= |m| then m
    else if j == i then TransposeFrom(m, i + 1, 0)
    else TransposeFrom(Swap(m, i, j), i, j + 1)
  }

  /** Closed form of the swap loop: the leading n-by-n block is transposed, the rest of each row kept. */
  function TransposeBlock(m: Grid): (r: Grid)
    requires Wide(m)
  {
    seq(|m|, a requires 0 <= a < |m| =>
      seq(|m[a]|, b requires 0 <= b < |m[a]| => if b < |m| then m[b][a] else m[a][b]))
  }

  /** Whether the cell (a, b) has been swapped once the loop reached row i, column j. */
  predicate Swapped(a: int, b: int, i: int, j: int) {
    (b < a && (a < i || (a == i && b < j))) || (a < b && (b < i || (b == i && a < j)))
  }

  /** The matrix the loop holds when it reaches row i, column j. */
  function Partial(m: Grid, i: nat, j: nat): (r: Grid)
    requires Wide(m)
  {
    seq(|m|, a requires 0 <= a < |m| =>
      seq(|m[a]|, b requires 0 <= b < |m[a]| =>
        if b < |m| && Swapped(a, b, i, j) then m[b][a] else m[a][b]))
  }

  lemma PartialStep(m: Grid, i: nat, j: nat)
    requires Wide(m) && j < i < |m|
    ensures Wide(Partial(m, i, j))
    ensures Swap(Partial(m, i, j), i, j) == Partial(m, i, j + 1)
  {
    var p := Partial(m, i, j);
    var s := Swap(p, i, j);
    var q := Partial(m, i, j + 1);
    assert |s| == |q|;
    forall a | 0 <= a < |s|
      ensures s[a] == q[a]
    {
      assert |s[a]| == |q[a]|;
    }
  }

  lemma PartialRow(m: Grid, i: nat)
    requires Wide(m)
    ensures Partial(m, i, i) == Partial(m, i + 1, 0)
  {
    var p := Partial(m, i, i);
    var q := Partial(m, i + 1, 0);
    forall a | 0 <= a < |m|
      ensures p[a] == q[a]
    {
    }
  }

  lemma {:induction false} TransposeFromPartial(m: Grid, i: nat, j: nat)
    requires Wide(m) && j <= i
    ensures Wide(Partial(m, i, j))
    ensures TransposeFrom(Partial(m, i, j), i, j) == TransposeBlock(m)
    decreases |m| - i, i - j
  {
    var p := Partial(m, i, j);
    if i >= |m| {
      var t := TransposeBlock(m);
      forall a | 0 <= a < |m|
        ensures p[a] == t[a]
      {
      }
    } else if j == i {
      PartialRow(m, i);
      TransposeFromPartial(m, i + 1, 0);
    } else {
      PartialStep(m, i, j);
      TransposeFromPartial(m, i, j + 1);
    }
  }

  /** The swap loop computes exactly the block transpose. */
  lemma TransposeLoopIsBlock(m: Grid)
    requires Wide(m)
    ensures TransposeFrom(m, 0, 0) == TransposeBlock(m)
  {
    TransposeFromPartial(m, 0, 0);
    var p := Partial(m, 0, 0);
    forall a | 0 <= a < |m|
      ensures p[a] == m[a]
    {
    }
    assert p == m;
  }

  // ----- the swap loop and both reversals only permute cells -----

  lemma {:induction false} CellsUpdate(m: Grid, i: nat, r: seq<int>)
    requires i < |m|
    ensures Cells(m[i := r]) + multiset(m[i]) == Cells(m) + multiset(r)
  {
    var u := m[i := r];
    if i == 0 {
      assert u[1..] == m[1..];
    } else {
      assert u[0] == m[0];
      assert m[1..][i - 1] == m[i];
      assert u[1..] == m[1..][i - 1 := r];
      CellsUpdate(m[1..], i - 1, r);
      calc {
        Cells(u) + multiset(m[i]);
        multiset(m[0]) + Cells(u[1..]) + multiset(m[i]);
        multiset(m[0]) + (Cells(m[1..][i - 1 := r]) + multiset(m[1..][i - 1]));
        multiset(m[0]) + (Cells(m[1..]) + multiset(r));
        Cells(m) + multiset(r);
      }
    }
  }

  lemma RowUpdate(row: seq<int>, j: nat, v: int)
    requires j < |row|
    ensures multiset(row[j := v]) + multiset{row[j]} == multiset(row) + multiset{v}
  {
  }

  /** Overwriting one cell trades its old value for the new one in the grid's multiset of cells. */
  lemma CellUpdate(m: Grid, i: nat, j: nat, v: int)
    requires i < |m| && j < |m[i]|
    ensures Cells(m[i := m[i][j := v]]) + multiset{m[i][j]} == Cells(m) + multiset{v}
  {
    var row := m[i][j := v];
    var c, c1, x, y := Cells(m), Cells(m[i := row]), multiset(m[i]), multiset(row);
    var u, w := multiset{m[i][j]}, multiset{v};
    CellsUpdate(m, i, row);
    RowUpdate(m[i], j, v);
    forall e
      ensures (c1 + u)[e] == (c + w)[e]
    {
      assert (c1 + x)[e] == (c + y)[e];
      assert (y + u)[e] == (x + w)[e];
    }
    assert c1 + u == c + w;
  }

  lemma SwapCells(m: Grid, i: nat, j: nat)
    requires Wide(m) && j < i < |m|
    ensures Cells(Swap(m, i, j)) == Cells(m)
  {
    var a := m[i][j];
    var b := m[j][i];
    var m1 := m[i := m[i][j := b]];
    assert m1[j] == m[j] && m1[j][i] == b;
    assert Swap(m, i, j) == m1[j := m1[j][i := a]];
    var c, c1, c2 := Cells(m), Cells(m1), Cells(Swap(m, i, j));
    assert c1 + multiset{a} == c + multiset{b} by {
      CellUpdate(m, i, j, b);
    }
    assert c2 + multiset{b} == c1 + multiset{a} by {
      CellUpdate(m1, j, i, a);
    }
    AddCancel(c2, c, b);
  }

  /** Adding the same element to both sides can be undone. */
  lemma AddCancel(x: multiset<int>, y: multiset<int>, b: int)
    requires x + multiset{b} == y + multiset{b}
    ensures x == y
  {
    forall e
      ensures x[e] == y[e]
    {
      assert (x + multiset{b})[e] == (y + multiset{b})[e];
    }
  }

  lemma {:induction false} TransposeFromCells(m: Grid, i: nat, j: nat)
    requires Wide(m) && j <= i
    ensures Cells(TransposeFrom(m, i, j)) == Cells(m)
    decreases |m| - i, i - j
  {
    if i >= |m| {
    } else if j == i {
      assert TransposeFrom(m, i, j) == TransposeFrom(m, i + 1, 0);
      TransposeFromCells(m, i + 1, 0);
    } else {
      var s := Swap(m, i, j);
      assert TransposeFrom(m, i, j) == TransposeFrom(s, i, j + 1);
      assert Cells(s) == Cells(m) by {
        SwapCells(m, i, j);
      }
      TransposeFromCells(s, i, j + 1);
    }
  }

  /** The block transpose is a permutation of the cells. */
  lemma TransposeBlockCells(m: Grid)
    requires Wide(m)
    ensures Cells(TransposeBlock(m)) == Cells(m)
  {
    TransposeLoopIsBlock(m);
    TransposeFromCells(m, 0, 0);
  }

  /** Reversing puts the last element first. */
  lemma ReverseLast(s: seq<int>)
    requires |s| > 0
    ensures Reverse(s) == [s[|s| - 1]] + Reverse(s[..|s| - 1])
  {
    var t := [s[|s| - 1]] + Reverse(s[..|s| - 1]);
    forall k | 0 <= k < |s|
      ensures Reverse(s)[k] == t[k]
    {
      if k > 0 {
        assert t[k] == Reverse(s[..|s| - 1])[k - 1];
      }
    }
  }

  lemma {:induction false} ReverseMultiset(s: seq<int>)
    ensures multiset(Reverse(s)) == multiset(s)
    decreases |s|
  {
    if |s| > 0 {
      var t := s[..|s| - 1];
      ReverseLast(s);
      ReverseMultiset(t);
      assert s == t + [s[|s| - 1]];
    }
  }

  lemma {:induction false} ReverseEachCells(m: Grid)
    ensures Cells(ReverseEach(m)) == Cells(m)
    decreases |m|
  {
    if |m| > 0 {
      assert ReverseEach(m)[1..] == ReverseEach(m[1..]);
      ReverseMultiset(m[0]);
      ReverseEachCells(m[1..]);
    }
  }

  lemma {:induction false} CellsAppend(m: Grid, r: seq<int>)
    ensures Cells(m + [r]) == Cells(m) + multiset(r)
    decreases |m|
  {
    if |m| == 0 {
      assert (m + [r])[1..] == [];
    } else {
      assert (m + [r])[1..] == m[1..] + [r];
      CellsAppend(m[1..], r);
    }
  }

  lemma {:induction false} ReverseOrderCells(m: Grid)
    ensures Cells(ReverseOrder(m)) == Cells(m)
    decreases |m|
  {
    if |m| > 0 {
      var t := m[..|m| - 1];
      assert ReverseOrder(m) == [m[|m| - 1]] + ReverseOrder(t);
      assert (ReverseOrder(m))[1..] == ReverseOrder(t);
      ReverseOrderCells(t);
      assert m == t + [m[|m| - 1]];
      CellsAppend(t, m[|m| - 1]);
    }
  }

  /** Every cell's value is among the cells. */
  lemma {:induction false} CellIn(m: Grid, i: nat, j: nat)
    requires i < |m| && j < |m[i]|
    ensures m[i][j] in Cells(m)
    decreases i
  {
    if i > 0 {
      assert m[1..][i - 1] == m[i];
      CellIn(m[1..], i - 1, j);
    } else {
      assert m[0][j] in multiset(m[0]);
    }
  }

  /** A value among the cells sits at some row and column. */
  lemma {:induction false} CellAt(m: Grid, v: int) returns (i: nat, j: nat)
    requires v in Cells(m)
    ensures i < |m| && j < |m[i]| && m[i][j] == v
    decreases |m|
  {
    if v in multiset(m[0]) {
      i := 0;
      j :| 0 <= j < |m[0]| && m[0][j] == v;
    } else {
      var i', j' := CellAt(m[1..], v);
      i, j := i' + 1, j';
    }
  }

  // ----- the two rotations built on the swap loop -----

  /** `b` is the square `a` turned a quarter clockwise: cell (i, j) of b is cell (n-1-j, i) of a. */
  predicate TurnedCw(b: Grid, a: Grid) {
    Square(a) && Square(b) && |b| == |a| &&
    forall i, j :: 0 <= i < |a| && 0 <= j < |a| ==> b[i][j] == a[|a| - 1 - j][i]
  }

  /** `b` is the square `a` turned a quarter counter-clockwise: cell (i, j) of b is cell (j, n-1-i) of a. */
  predicate TurnedCcw(b: Grid, a: Grid) {
    Square(a) && Square(b) && |b| == |a| &&
    forall i, j :: 0 <= i < |a| && 0 <= j < |a| ==> b[i][j] == a[j][|a| - 1 - i]
  }

  /** The two quarter turns undo each other, in either order. */
  lemma TurnBack(a: Grid, b: Grid, c: Grid)
    requires (TurnedCw(b, a) && TurnedCcw(c, b)) || (TurnedCcw(b, a) && TurnedCw(c, b))
    ensures c == a
  {
    if TurnedCw(b, a) && TurnedCcw(c, b) {
      CwThenCcw(a, b, c);
    } else {
      CcwThenCw(a, b, c);
    }
  }

  /** A clockwise quarter turn followed by a counter-clockwise one. */
  lemma CwThenCcw(a: Grid, b: Grid, c: Grid)
    requires TurnedCw(b, a) && TurnedCcw(c, b)
    ensures c == a
  {
    var n := |a|;
    forall i, j | 0 <= i < n && 0 <= j < n
      ensures c[i][j] == a[i][j]
    {
      assert c[i][j] == b[j][n - 1 - i];
      assert b[j][n - 1 - i] == a[n - 1 - (n - 1 - i)][j];
    }
    SameCells(a, c);
  }

  /** A counter-clockwise quarter turn followed by a clockwise one. */
  lemma CcwThenCw(a: Grid, b: Grid, c: Grid)
    requires TurnedCcw(b, a) && TurnedCw(c, b)
    ensures c == a
  {
    var n := |a|;
    forall i, j | 0 <= i < n && 0 <= j < n
      ensures c[i][j] == a[i][j]
    {
      assert c[i][j] == b[n - 1 - j][i];
      assert b[n - 1 - j][i] == a[i][n - 1 - (n - 1 - j)];
    }
    SameCells(a, c);
  }

  /** Two squares of one size that agree cell by cell are equal. */
  lemma SameCells(a: Grid, c: Grid)
    requires Square(a) && Square(c) && |c| == |a|
    requires forall i, j :: 0 <= i < |a| && 0 <= j < |a| ==> c[i][j] == a[i][j]
    ensures c == a
  {
    forall i | 0 <= i < |a|
      ensures c[i] == a[i]
    {
      assert |c[i]| == |a| && |a[i]| == |a|;
    }
  }

  /** Swap loop, then every row reversed: the clockwise quarter turn of a square matrix. */
  function Clockwise(m: Grid): (r: Grid)
    requires Wide(m)
    ensures |r| == |m| && Wide(r) && Cells(r) == Cells(m)
  {
    TransposeBlockCells(m);
    ReverseEachCells(TransposeBlock(m));
    ReverseEach(TransposeBlock(m))
  }

  /** Swap loop, then the row order reversed: the counter-clockwise quarter turn of a square matrix. */
  function CounterClockwise(m: Grid): (r: Grid)
    requires Wide(m)
    ensures |r| == |m| && Wide(r) && Cells(r) == Cells(m)
  {
    TransposeBlockCells(m);
    ReverseOrderCells(TransposeBlock(m));
    ReverseOrder(TransposeBlock(m))
  }

  lemma ClockwiseSquare(m: Grid)
    requires Wide(m)
    ensures Square(m) ==> TurnedCw(Clockwise(m), m)
  {
    if Square(m) {
      var n := |m|;
      var t := TransposeBlock(m);
      var r := Clockwise(m);
      forall i | 0 <= i < n
        ensures |r[i]| == n && forall j :: 0 <= j < n ==> r[i][j] == m[n - 1 - j][i]
      {
        assert r[i] == Reverse(t[i]);
      }
    }
  }

  lemma CounterClockwiseSquare(m: Grid)
    requires Square(m)
    ensures TurnedCcw(CounterClockwise(m), m)
  {
    var n := |m|;
    var t := TransposeBlock(m);
    var r := CounterClockwise(m);
    forall i | 0 <= i < n
      ensures |r[i]| == n
    {
      assert r[i] == t[n - 1 - i];
    }
  }

  lemma CounterClockwiseRect(m: Grid, w: int)
    requires Wide(m) && Rect(m, w)
    ensures Rect(CounterClockwise(m), w)
  {
    var t := TransposeBlock(m);
    var r := CounterClockwise(m);
    forall i | 0 <= i < |m|
      ensures |r[i]| == w
    {
      assert r[i] == t[|m| - 1 - i];
    }
  }

  /** m has a non-zero cell: a piece shape with at least one block. */
  predicate HasCell(m: Grid) {
    exists i, j :: 0 <= i < |m| && 0 <= j < |m[i]| && m[i][j] != 0
  }

  // ----- stamping a shape onto a grid (desktop `freeze`, mobile `merge`) -----

  /** Whether a shape cell is written: desktop writes values > 0, mobile writes values !== 0. */
  predicate Marks(v: int, positiveOnly: bool) {
    if positiveOnly then v > 0 else v != 0
  }

  /** Grid cell (r, c) lies under a written cell of shape `s` placed at column x, row y. */
  predicate Covers(s: Grid, x: int, y: int, r: int, c: int, positiveOnly: bool) {
    0 <= r - y < |s| && 0 <= c - x < |s[r - y]| && Marks(s[r - y][c - x], positiveOnly)
  }

  /** Every written cell of `s` placed at (x, y) falls on an existing grid cell. */
  predicate Lands(g: Grid, s: Grid, x: int, y: int, positiveOnly: bool) {
    forall dy, dx :: 0 <= dy < |s| && 0 <= dx < |s[dy]| && Marks(s[dy][dx], positiveOnly) ==>
      0 <= y + dy < |g| && 0 <= x + dx < |g[y + dy]|
  }

  /** Same number of rows, and every row keeps its length. */
  predicate SameShape(a: Grid, b: Grid) {
    |a| == |b| && forall r :: 0 <= r < |a| ==> |a[r]| == |b[r]|
  }

  /** `row.forEach((value, dx) => ...)` over row dy of the shape, from column dx on. */
  function StampRow(g: Grid, s: Grid, x: int, y: int, dy: nat, dx: nat, positiveOnly: bool): (r: Grid)
    requires Lands(g, s, x, y, positiveOnly) && dy < |s| && dx <= |s[dy]|
    ensures SameShape(r, g)
    ensures forall i, j :: 0 <= i < |g| && 0 <= j < |g[i]| ==>
      r[i][j] == (if i == y + dy && dx <= j - x < |s[dy]| && Marks(s[dy][j - x], positiveOnly)
                  then s[dy][j - x] else g[i][j])
    decreases |s[dy]| - dx
  {
    if dx == |s[dy]| then g
    else
      var g' := if Marks(s[dy][dx], positiveOnly) then g[y + dy := g[y + dy][x + dx := s[dy][dx]]] else g;
      StampRow(g', s, x, y, dy, dx + 1, positiveOnly)
  }

  /** `shape.forEach((row, dy) => ...)` from shape row dy on. */
  function StampFrom(g: Grid, s: Grid, x: int, y: int, dy: nat, positiveOnly: bool): (r: Grid)
    requires Lands(g, s, x, y, positiveOnly) && dy <= |s|
    ensures SameShape(r, g)
    ensures forall i, j :: 0 <= i < |g| && 0 <= j < |g[i]| ==>
      r[i][j] == (if dy <= i - y && Covers(s, x, y, i, j, positiveOnly) then s[i - y][j - x] else g[i][j])
    decreases |s| - dy
  {
    if dy == |s| then g
    else StampFrom(StampRow(g, s, x, y, dy, 0, positiveOnly), s, x, y, dy + 1, positiveOnly)
  }

  /**
   * Write every marked cell of `s`, placed at column x and row y, into `g`:
   * exactly the covered cells take the shape's value and every other cell is unchanged.
   */
  function Stamp(g: Grid, s: Grid, x: int, y: int, positiveOnly: bool): (r: Grid)
    requires Lands(g, s, x, y, positiveOnly)
    ensures SameShape(r, g)
    ensures forall i, j :: 0 <= i < |g| && 0 <= j < |g[i]| ==>
      r[i][j] == (if Covers(s, x, y, i, j, positiveOnly) then s[i - y][j - x] else g[i][j])
  {
    StampFrom(g, s, x, y, 0, positiveOnly)
  }
}

=== FILE: mobile_arena.dfy ===
/**
 * The mobile variant's arena logic (mobile_tetris/game.js): the PIECES
 * table, collision, merging a landed piece, the in-place rotation, the
 * wall-kick search of `playerRotate`, and the bottom-up `arenaSweep`.
 *
 * Unlike the desktop variant, the pieces here are not square (T, S, Z, L, J
 * are 2 by 3 and I is 1 by 4), a cell counts as filled when it is not 0,
 * and a sweep scores 10 points per removed row.
 */
module MobileArena {
  import opened Wrappers
  import opened Matrix

  const COLS: int := 10
  const ROWS: int := 20

  /** `PIECES[t]` for t in 1..7; index 0 of the table is an empty placeholder no piece uses. */
  function Pieces(t: int): Grid {
    if t == 1 then [[1, 1, 1], [0, 1, 0]]
    else if t == 2 then [[2, 2], [2, 2]]
    else if t == 3 then [[0, 3, 3], [3, 3, 0]]
    else if t == 4 then [[4, 4, 0], [0, 4, 4]]
    else if t == 5 then [[5, 0, 0], [5, 5, 5]]
    else if t == 6 then [[0, 0, 6], [6, 6, 6]]
    else if t == 7 then [[7, 7, 7, 7]]
    else []
  }

  /** Every table entry has one or two rows of equal width 2..4, at least as wide as it is tall. */
  lemma PiecesTable(t: int)
    requires 1 <= t <= 7
    ensures 1 <= |Pieces(t)| <= 2 && 2 <= |Pieces(t)[0]| <= 4
    ensures Rect(Pieces(t), |Pieces(t)[0]|) && Wide(Pieces(t))
  {
  }

  /** `createGrid`: ROWS rows of COLS zeros. */
  function CreateGrid(): (g: Grid)
    ensures Dims(g, ROWS, COLS)
    ensures forall r, c :: 0 <= r < ROWS && 0 <= c < COLS ==> g[r][c] == 0
  {
    ZeroRows(ROWS, COLS)
  }

  /** The player: its matrix and the arena position of the matrix's top-left cell. */
  datatype Player = Player(matrix: Grid, x: int, y: int)

  // ----- collide -----

  /** `(arena[r] && arena[r][c]) !== 0`: a missing row, a missing column, or a non-zero cell. */
  predicate Blocked(arena: Grid, r: int, c: int) {
    !(0 <= r < |arena| && 0 <= c < |arena[r]|) || arena[r][c] != 0
  }

  /** Some non-zero cell of m, placed at (px, py), is blocked. */
  ghost predicate Overlaps(arena: Grid, m: Grid, px: int, py: int) {
    exists y, x :: 0 <= y < |m| && 0 <= x < |m[y]| && m[y][x] != 0 && Blocked(arena, y + py, x + px)
  }

  /** Some non-zero cell of row y of m, from column x on, is blocked. */
  ghost predicate RowHits(arena: Grid, m: Grid, px: int, py: int, y: nat, x: nat)
    requires y < |m|
  {
    exists k :: x <= k < |m[y]| && m[y][k] != 0 && Blocked(arena, y + py, k + px)
  }

  /** Some non-zero cell of m, from row y on, is blocked. */
  ghost predicate HitsFrom(arena: Grid, m: Grid, px: int, py: int, y: nat) {
    exists j, k :: y <= j < |m| && 0 <= k < |m[j]| && m[j][k] != 0 && Blocked(arena, j + py, k + px)
  }

  /** The inner loop of `collide` over row y, from column x on. */
  function CollideRow(arena: Grid, m: Grid, px: int, py: int, y: nat, x: nat): bool
    requires y < |m| && x <= |m[y]|
    decreases |m[y]| - x
  {
    if x == |m[y]| then false
    else if m[y][x] != 0 && Blocked(arena, y + py, x + px) then true
    else CollideRow(arena, m, px, py, y, x + 1)
  }

  /** The outer loop of `collide`, from row y on. */
  function CollideFrom(arena: Grid, m: Grid, px: int, py: int, y: nat): bool
    requires y <= |m|
    decreases |m| - y
  {
    if y == |m| then false
    else CollideRow(arena, m, px, py, y, 0) || CollideFrom(arena, m, px, py, y + 1)
  }

  /** `collide(arena, player)`, with the player's matrix m at (px, py). */
  function Collide(arena: Grid, m: Grid, px: int, py: int): bool {
    CollideFrom(arena, m, px, py, 0)
  }

  /** The inner loop returns true exactly when a blocked non-zero cell lies ahead in the row. */
  lemma {:induction false} CollideRowHits(arena: Grid, m: Grid, px: int, py: int, y: nat, x: nat)
    requires y < |m| && x <= |m[y]|
    ensures CollideRow(arena, m, px, py, y, x) <==> RowHits(arena, m, px, py, y, x)
    decreases |m[y]| - x
  {
    if x < |m[y]| {
      CollideRowHits(arena, m, px, py, y, x + 1);
      if RowHits(arena, m, px, py, y, x) && !(m[y][x] != 0 && Blocked(arena, y + py, x + px)) {
        var k :| x <= k < |m[y]| && m[y][k] != 0 && Blocked(arena, y + py, k + px);
        assert RowHits(arena, m, px, py, y, x + 1);
      }
    }
  }

  /** The outer loop returns true exactly when a blocked non-zero cell lies in a remaining row. */
  lemma {:induction false} CollideFromHits(arena: Grid, m: Grid, px: int, py: int, y: nat)
    requires y <= |m|
    ensures CollideFrom(arena, m, px, py, y) <==> HitsFrom(arena, m, px, py, y)
    decreases |m| - y
  {
    if y < |m| {
      CollideRowHits(arena, m, px, py, y, 0);
      CollideFromHits(arena, m, px, py, y + 1);
      if HitsFrom(arena, m, px, py, y) {
        var j, k :| y <= j < |m| && 0 <= k < |m[j]| && m[j][k] != 0 && Blocked(arena, j + py, k + px);
        if j == y {
          assert RowHits(arena, m, px, py, y, 0);
        } else {
          assert HitsFrom(arena, m, px, py, y + 1);
        }
      }
      if RowHits(arena, m, px, py, y, 0) {
        var k :| 0 <= k < |m[y]| && m[y][k] != 0 && Blocked(arena, y + py, k + px);
        assert HitsFrom(arena, m, px, py, y);
      }
      if HitsFrom(arena, m, px, py, y + 1) {
        var j, k :| y + 1 <= j < |m| && 0 <= k < |m[j]| && m[j][k] != 0 && Blocked(arena, j + py, k + px);
        assert HitsFrom(arena, m, px, py, y);
      }
    }
  }

  /**
   * `collide` is true exactly when some non-zero matrix cell falls on a
   * missing row or column of the arena, or on a non-zero cell.
   */
  lemma CollideOverlaps(arena: Grid, m: Grid, px: int, py: int)
    ensures Collide(arena, m, px, py) <==> Overlaps(arena, m, px, py)
  {
    CollideFromHits(arena, m, px, py, 0);
  }

  /** A non-zero cell of m on a blocked arena cell makes m collide. */
  lemma CollideAt(arena: Grid, m: Grid, px: int, py: int, y: nat, x: nat)
    requires y < |m| && x < |m[y]| && m[y][x] != 0 && Blocked(arena, y + py, x + px)
    ensures Collide(arena, m, px, py)
  {
    CollideOverlaps(arena, m, px, py);
  }

  /** A piece that does not collide has every non-zero cell on an empty arena cell. */
  lemma NoCollideLands(arena: Grid, m: Grid, px: int, py: int)
    requires !Collide(arena, m, px, py)
    ensures Lands(arena, m, px, py, false)
    ensures forall y, x :: 0 <= y < |m| && 0 <= x < |m[y]| && m[y][x] != 0 ==> arena[y + py][x + px] == 0
  {
    CollideOverlaps(arena, m, px, py);
  }

  // ----- merge -----

  /**
   * `merge(arena, player)`: exactly the arena cells under the player's
   * non-zero cells take those values; every other cell is unchanged.
   */
  function Merge(arena: Grid, p: Player): (r: Grid)
    requires Lands(arena, p.matrix, p.x, p.y, false)
    ensures SameShape(r, arena)
    ensures forall i, j :: 0 <= i < |arena| && 0 <= j < |arena[i]| ==>
      r[i][j] == (if Covers(p.matrix, p.x, p.y, i, j, false) then p.matrix[i - p.y][j - p.x] else arena[i][j])
  {
    Stamp(arena, p.matrix, p.x, p.y, false)
  }

  // ----- rotate -----

  /**
   * `rotate(matrix, dir)`: the swap-loop transpose, then every row reversed
   * when dir > 0 and the row order reversed otherwise. It only permutes cells
   * and keeps the number of rows.
   */
  function Rotate(m: Grid, dir: int): (r: Grid)
    requires Wide(m)
    ensures |r| == |m| && Wide(r) && Cells(r) == Cells(m)
  {
    if dir > 0 then Clockwise(m) else CounterClockwise(m)
  }

  /** A rectangular matrix stays rectangular with the same width. */
  lemma RotateRect(m: Grid, dir: int, w: int)
    requires Wide(m) && Rect(m, w)
    ensures Rect(Rotate(m, dir), w)
  {
    if dir <= 0 {
      CounterClockwiseRect(m, w);
    }
  }

  /** On a square matrix, dir > 0 is the clockwise and dir <= 0 the counter-clockwise quarter turn. */
  lemma RotateSquare(m: Grid, dir: int)
    requires Square(m)
    ensures dir > 0 ==> TurnedCw(Rotate(m, dir), m)
    ensures dir <= 0 ==> TurnedCcw(Rotate(m, dir), m)
  {
    if dir <= 0 {
      CounterClockwiseSquare(m);
    } else {
      ClockwiseSquare(m);
    }
  }

  /** On a square matrix a rotation by -dir undoes a rotation by dir, for dir != 0. */
  lemma {:induction false} RotateUndo(m: Grid, dir: int)
    requires Square(m) && dir != 0
    ensures Rotate(Rotate(m, dir), -dir) == m
  {
    var r1 := Rotate(m, dir);
    RotateSquare(m, dir);
    RotateSquare(r1, -dir);
    TurnBack(m, r1, Rotate(r1, -dir));
  }

  // ----- the wall kick of playerRotate -----

  /**
   * The `while (collide(...))` loop of `playerRotate`: test x; on a
   * collision step x by the offset, and turn the offset into the next one of
   * 1, -2, 3, -4, ...; give up (None) as soon as that next offset exceeds w,
   * the width of the rotated matrix, without testing the x just reached.
   */
  function Kick(arena: Grid, m: Grid, w: int, x: int, y: int, offset: int): (r: Option<int>)
    requires 0 <= w
    requires (0 < offset <= w + 1) || (offset < 0 && -offset <= w + 2)
    ensures r.Some? ==> !Collide(arena, m, r.value, y)
    decreases w + 3 - (if offset < 0 then -offset else offset)
  {
    if !Collide(arena, m, x, y) then Some(x)
    else
      var next := -(offset + (if offset > 0 then 1 else -1));
      if next > w then None
      else Kick(arena, m, w, x + offset, y, next)
  }

  /** The k-th position the kick tests, relative to the start: 0, 1, -1, 2, -2, ... */
  function Shift(k: nat): int {
    if k % 2 == 1 then (k + 1) / 2 else -(k / 2)
  }

  /** The offset in force when the k-th position is tested: 1, -2, 3, -4, ... */
  function Offset(k: nat): int {
    if k % 2 == 0 then k + 1 else -(k + 1)
  }

  /** How many positions the kick tests for a rotated matrix of width w: the even number 2 * max(1, ceil(w / 2)). */
  function Tries(w: nat): (n: nat)
    ensures n % 2 == 0 && 2 <= n && w <= n <= w + 2
  {
    if w <= 1 then 2 else 2 * ((w + 1) / 2)
  }

  /**
   * Reference search: the least index i in k..n-1 whose position
   * start + Shift(i) is free of collisions, or None when every one collides.
   */
  function FirstFit(arena: Grid, m: Grid, start: int, y: int, k: nat, n: nat): (r: Option<nat>)
    ensures r.Some? ==> k <= r.value < n && !Collide(arena, m, start + Shift(r.value), y)
    ensures r.Some? ==> forall i :: k <= i < r.value ==> Collide(arena, m, start + Shift(i), y)
    ensures r.None? ==> forall i :: k <= i < n ==> Collide(arena, m, start + Shift(i), y)
    decreases n - k
  {
    if k >= n then None
    else if !Collide(arena, m, start + Shift(k), y) then Some(k)
    else FirstFit(arena, m, start, y, k + 1, n)
  }

  /** The position FirstFit picks. */
  function FitAt(start: int, f: Option<nat>): Option<int> {
    match f
    case Some(i) => Some(start + Shift(i))
    case None => None
  }

  /** One step of the loop: the next offset and the next tested position. */
  lemma OffsetStep(k: nat)
    ensures Offset(k + 1) == -(Offset(k) + (if Offset(k) > 0 then 1 else -1))
    ensures Shift(k + 1) == Shift(k) + Offset(k)
  {
  }

  /** Every test index keeps the offset in Kick's range, and the loop gives up exactly after the last one. */
  lemma TriesBound(w: nat, k: nat)
    requires k < Tries(w)
    ensures (0 < Offset(k) <= w + 1) || (Offset(k) < 0 && -Offset(k) <= w + 2)
    ensures Offset(k + 1) > w <==> k + 1 == Tries(w)
  {
  }

  /** One unrolling of Kick at a colliding position. */
  lemma KickStep(arena: Grid, m: Grid, w: nat, x: int, y: int, o: int, next: int)
    requires (0 < o <= w + 1) || (o < 0 && -o <= w + 2)
    requires Collide(arena, m, x, y) && next == -(o + (if o > 0 then 1 else -1))
    ensures next > w ==> Kick(arena, m, w, x, y, o) == None
    ensures next <= w ==> Kick(arena, m, w, x, y, o) == Kick(arena, m, w, x + o, y, next)
  {
  }

  /** From the k-th test on, the kick loop is the first-fit search over the remaining Tries(w) positions. */
  lemma {:induction false} KickFrom(arena: Grid, m: Grid, w: nat, start: int, y: int, k: nat)
    requires k < Tries(w)
    ensures (0 < Offset(k) <= w + 1) || (Offset(k) < 0 && -Offset(k) <= w + 2)
    ensures Kick(arena, m, w, start + Shift(k), y, Offset(k)) == FitAt(start, FirstFit(arena, m, start, y, k, Tries(w)))
    decreases Tries(w) - k
  {
    TriesBound(w, k);
    var x := start + Shift(k);
    var o := Offset(k);
    var n := Tries(w);
    if !Collide(arena, m, x, y) {
      assert Kick(arena, m, w, x, y, o) == FitAt(start, FirstFit(arena, m, start, y, k, n)) by {
        assert Kick(arena, m, w, x, y, o) == Some(x);
        assert FirstFit(arena, m, start, y, k, n) == Some(k);
      }
    } else {
      assert Kick(arena, m, w, x, y, o) == FitAt(start, FirstFit(arena, m, start, y, k, n)) by {
        OffsetStep(k);
        KickStep(arena, m, w, x, y, o, Offset(k + 1));
        assert FirstFit(arena, m, start, y, k, n) == FirstFit(arena, m, start, y, k + 1, n);
        if k + 1 < n {
          KickFrom(arena, m, w, start, y, k + 1);
          assert x + o == start + Shift(k + 1);
        } else {
          assert FirstFit(arena, m, start, y, k + 1, n) == None;
        }
      }
    }
  }

  /**
   * The kick started as `playerRotate` starts it (offset 1 at the old x)
   * finds the first non-colliding position of start, start+1, start-1,
   * start+2, start-2, ..., among Tries(w) of them, or none.
   */
  lemma KickFirstFit(arena: Grid, m: Grid, w: nat, start: int, y: int)
    ensures Kick(arena, m, w, start, y, 1) == FitAt(start, FirstFit(arena, m, start, y, 0, Tries(w)))
  {
    KickFrom(arena, m, w, start, y, 0);
  }

  /**
   * `playerRotate(dir)` as written: rotate in place, kick, and on failure
   * rotate by -dir and restore x. The kick width is the rotated matrix's
   * first row.
   */
  function PlayerRotate(arena: Grid, p: Player, dir: int): (r: Player)
    requires Wide(p.matrix) && |p.matrix| > 0
    ensures r.y == p.y
    ensures var m := Rotate(p.matrix, dir);
      match FirstFit(arena, m, p.x, p.y, 0, Tries(|m[0]|))
      case Some(i) => r == Player(m, p.x + Shift(i), p.y)
      case None => r == Player(Rotate(m, -dir), p.x, p.y)
  {
    var m := Rotate(p.matrix, dir);
    KickFirstFit(arena, m, |m[0]|, p.x, p.y);
    match Kick(arena, m, |m[0]|, p.x, p.y, 1)
    case Some(x) => Player(m, x, p.y)
    case None => Player(Rotate(m, -dir), p.x, p.y)
  }

  /**
   * For a square matrix (the O piece) the as-written rotation is sound: the
   * player either ends rotated at a free position or is left exactly as it was.
   */
  lemma PlayerRotateSquare(arena: Grid, p: Player, dir: int)
    requires Square(p.matrix) && |p.matrix| > 0 && dir != 0
    ensures var r := PlayerRotate(arena, p, dir);
      r == p || (r.matrix == Rotate(p.matrix, dir) && !Collide(arena, r.matrix, r.x, r.y))
  {
    RotateUndo(p.matrix, dir);
  }

  // ----- what rotate does to the 2 by 3 pieces -----

  /** The swap loop on a 2 by 3 matrix exchanges only the cells (0, 1) and (1, 0). */
  lemma TransposeTwoByThree(a: int, b: int, c: int, d: int, e: int, f: int)
    ensures TransposeBlock([[a, b, c], [d, e, f]]) == [[a, d, c], [b, e, f]]
  {
    var m := [[a, b, c], [d, e, f]];
    var t := TransposeBlock(m);
    assert t[0] == [a, d, c];
    assert t[1] == [b, e, f];
  }

  /** `rotate(matrix, 1)` on a 2 by 3 matrix: two rows again, not three. */
  lemma ClockwiseTwoByThree(a: int, b: int, c: int, d: int, e: int, f: int)
    ensures Rotate([[a, b, c], [d, e, f]], 1) == [[c, d, a], [f, e, b]]
  {
    TransposeTwoByThree(a, b, c, d, e, f);
    var t := [[a, d, c], [b, e, f]];
    assert Reverse(t[0]) == [c, d, a];
    assert Reverse(t[1]) == [f, e, b];
  }

  /** `rotate(matrix, -1)` on a 2 by 3 matrix: two rows again, not three. */
  lemma CounterClockwiseTwoByThree(a: int, b: int, c: int, d: int, e: int, f: int)
    ensures Rotate([[a, b, c], [d, e, f]], -1) == [[b, e, f], [a, d, c]]
  {
    TransposeTwoByThree(a, b, c, d, e, f);
  }

  /** Clockwise `rotate` of T. */
  lemma TeeClockwise()
    ensures Rotate(Pieces(1), 1) == [[1, 0, 1], [0, 1, 1]]
  {
    ClockwiseTwoByThree(1, 1, 1, 0, 1, 0);
  }

  /** Counter-clockwise `rotate` of the clockwise result. */
  lemma TeeBack()
    ensures Rotate([[1, 0, 1], [0, 1, 1]], -1) == [[0, 1, 1], [1, 0, 1]]
  {
    CounterClockwiseTwoByThree(1, 0, 1, 0, 1, 1);
  }

  /**
   * The in-place rotate keeps the number of rows, so on a 2 by 3 piece it is
   * not a quarter turn: T comes out as a disconnected shape, and turning that
   * back by -1 gives neither T nor the first result.
   */
  lemma RotateTeeAsWritten()
    ensures Rotate(Rotate(Pieces(1), 1), -1) == [[0, 1, 1], [1, 0, 1]] != Pieces(1)
  {
    TeeClockwise();
    TeeBack();
  }

  /** T fits at the top left of the two-row arena below. */
  lemma TeeFits()
    ensures !Collide([[0, 0, 0, 5], [5, 0, 5, 5]], [[1, 1, 1], [0, 1, 0]], 0, 0)
  {
    var arena := [[0, 0, 0, 5], [5, 0, 5, 5]];
    var t := [[1, 1, 1], [0, 1, 0]];
    CollideOverlaps(arena, t, 0, 0);
    forall y, x | 0 <= y < |t| && 0 <= x < |t[y]| && t[y][x] != 0
      ensures !Blocked(arena, y, x)
    {
      assert (y == 0 && x < 3) || (y == 1 && x == 1);
    }
  }

  /** Every kick position of the clockwise-rotated T collides on that arena. */
  lemma TeeKickFails()
    ensures FirstFit([[0, 0, 0, 5], [5, 0, 5, 5]], [[1, 0, 1], [0, 1, 1]], 0, 0, 0, Tries(3)) == None
  {
    var arena := [[0, 0, 0, 5], [5, 0, 5, 5]];
    var m := [[1, 0, 1], [0, 1, 1]];
    CollideAt(arena, m, 0, 0, 1, 2);
    CollideAt(arena, m, 1, 0, 0, 2);
    CollideAt(arena, m, -1, 0, 0, 0);
    CollideAt(arena, m, 2, 0, 0, 2);
    assert Shift(0) == 0 && Shift(1) == 1 && Shift(2) == -1 && Shift(3) == 2 && Tries(3) == 4;
  }

  /**
   * A failed kick corrupts the T piece: on this two-row arena T fits at
   * (0, 0), every kick position of the rotated shape collides, and
   * `playerRotate` leaves a different shape at the old position, one that
   * now overlaps the stack.
   */
  lemma PlayerRotateTeeAsWritten()
    ensures !Collide([[0, 0, 0, 5], [5, 0, 5, 5]], [[1, 1, 1], [0, 1, 0]], 0, 0)
    ensures PlayerRotate([[0, 0, 0, 5], [5, 0, 5, 5]], Player([[1, 1, 1], [0, 1, 0]], 0, 0), 1)
         == Player([[0, 1, 1], [1, 0, 1]], 0, 0)
    ensures Collide([[0, 0, 0, 5], [5, 0, 5, 5]], [[0, 1, 1], [1, 0, 1]], 0, 0)
  {
    TeeFits();
    assert [[1, 1, 1], [0, 1, 0]] == Pieces(1);
    TeeClockwise();
    TeeBack();
    TeeKickFails();
    CollideAt([[0, 0, 0, 5], [5, 0, 5, 5]], [[0, 1, 1], [1, 0, 1]], 0, 0, 1, 0);
  }

  // ----- the quarter turn rotate evidently intends -----

  /**
   * A quarter turn of an h by w matrix into a w by h one: clockwise for
   * dir > 0, counter-clockwise otherwise. On square matrices it agrees with
   * `Rotate`.
   */
  function QuarterTurn(m: Grid, dir: int): (r: Grid)
    requires |m| > 0 && Rect(m, |m[0]|)
    ensures |r| == |m[0]| && Rect(r, |m|)
  {
    var h := |m|;
    var w := |m[0]|;
    if dir > 0 then seq(w, i requires 0 <= i < w => seq(h, j requires 0 <= j < h => m[h - 1 - j][i]))
    else seq(w, i requires 0 <= i < w => seq(h, j requires 0 <= j < h => m[j][w - 1 - i]))
  }

  /** Turning by dir and then by -dir restores every matrix with at least one column. */
  lemma QuarterTurnUndo(m: Grid, dir: int)
    requires |m| > 0 && |m[0]| > 0 && Rect(m, |m[0]|) && dir != 0
    ensures QuarterTurn(QuarterTurn(m, dir), -dir) == m
  {
    var h := |m|;
    var w := |m[0]|;
    var r1 := QuarterTurn(m, dir);
    var r2 := QuarterTurn(r1, -dir);
    forall i | 0 <= i < h
      ensures r2[i] == m[i]
    {
      forall j | 0 <= j < w
        ensures r2[i][j] == m[i][j]
      {
        if dir > 0 {
          assert r2[i][j] == r1[j][h - 1 - i];
        } else {
          assert r2[i][j] == r1[w - 1 - j][i];
        }
      }
    }
  }

  /** A quarter turn moves every cell somewhere, so a matrix with a non-zero cell keeps one. */
  lemma QuarterTurnHasCell(m: Grid, dir: int)
    requires |m| > 0 && Rect(m, |m[0]|) && HasCell(m)
    ensures HasCell(QuarterTurn(m, dir))
  {
    var h := |m|;
    var w := |m[0]|;
    var a, b :| 0 <= a < h && 0 <= b < |m[a]| && m[a][b] != 0;
    var r := QuarterTurn(m, dir);
    if dir > 0 {
      assert r[b][h - 1 - a] == m[a][b];
    } else {
      assert r[w - 1 - b][a] == m[a][b];
    }
  }

  /** Every table entry has a non-zero cell in its first row. */
  lemma PiecesHaveCell(t: int)
    requires 1 <= t <= 7
    ensures HasCell(Pieces(t))
  {
    var p := Pieces(t);
    if t == 3 {
      assert p[0][1] != 0;
    } else if t == 6 {
      assert p[0][2] != 0;
    } else {
      assert p[0][0] != 0;
    }
  }

  /** On a square matrix the quarter turn is exactly what `rotate` computes. */
  lemma QuarterTurnIsRotate(m: Grid, dir: int)
    requires Square(m) && |m| > 0
    ensures QuarterTurn(m, dir) == Rotate(m, dir)
  {
    RotateSquare(m, dir);
    var r := Rotate(m, dir);
    var q := QuarterTurn(m, dir);
    forall i | 0 <= i < |m|
      ensures q[i] == r[i]
    {
    }
  }

  /** Four quarter turns the same way restore T, which `rotate` never does. */
  lemma QuarterTurnTee()
    ensures QuarterTurn(Pieces(1), 1) == [[0, 1], [1, 1], [0, 1]]
    ensures QuarterTurn(QuarterTurn(Pieces(1), 1), -1) == Pieces(1)
  {
    var t := Pieces(1);
    var q := QuarterTurn(t, 1);
    assert q[0] == [t[1][0], t[0][0]];
    assert q[1] == [t[1][1], t[0][1]];
    assert q[2] == [t[1][2], t[0][2]];
    QuarterTurnUndo(t, 1);
  }

  /**
   * `playerRotate` with the quarter turn: on success the turned matrix sits
   * at the first free kick position; on failure the player is left exactly
   * as it was.
   */
  function PlayerRotateFixed(arena: Grid, p: Player, dir: int): (r: Player)
    requires |p.matrix| > 0 && |p.matrix[0]| > 0 && Rect(p.matrix, |p.matrix[0]|) && dir != 0
    ensures r.y == p.y && |r.matrix| > 0 && |r.matrix[0]| > 0 && Rect(r.matrix, |r.matrix[0]|)
    ensures var m := QuarterTurn(p.matrix, dir);
      match FirstFit(arena, m, p.x, p.y, 0, Tries(|m[0]|))
      case Some(i) => r == Player(m, p.x + Shift(i), p.y)
      case None => r == p
    ensures r == p || (r.matrix == QuarterTurn(p.matrix, dir) && !Collide(arena, r.matrix, r.x, r.y))
  {
    var m := QuarterTurn(p.matrix, dir);
    KickFirstFit(arena, m, |m[0]|, p.x, p.y);
    QuarterTurnUndo(p.matrix, dir);
    match Kick(arena, m, |m[0]|, p.x, p.y, 1)
    case Some(x) => Player(m, x, p.y)
    case None => Player(QuarterTurn(m, -dir), p.x, p.y)
  }

  // ----- arenaSweep -----

  /** A row counts as full in the mobile sweep when none of its cells is 0. */
  predicate FullM(row: seq<int>) {
    forall c :: 0 <= c < |row| ==> row[c] != 0
  }

  /** The rows of g that are not full, in order. */
  function NonFullM(g: Grid): Grid {
    if |g| == 0 then [] else (if FullM(g[0]) then [] else [g[0]]) + NonFullM(g[1..])
  }

  /** How many rows of g are full. */
  function CountFullM(g: Grid): nat {
    if |g| == 0 then 0 else (if FullM(g[0]) then 1 else 0) + CountFullM(g[1..])
  }

  /** Reference result of a sweep: one empty row on top for each full row, then the other rows in order. */
  function Sweep(g: Grid, w: nat): Grid {
    ZeroRows(CountFullM(g), w) + NonFullM(g)
  }

  /** Every row of NonFullM(g) is a non-full row of g, and the kept and the full rows add up to g. */
  lemma {:induction false} NonFullMRows(g: Grid, w: int)
    requires Rect(g, w)
    ensures |NonFullM(g)| + CountFullM(g) == |g|
    ensures Rect(NonFullM(g), w)
    ensures forall k :: 0 <= k < |NonFullM(g)| ==> !FullM(NonFullM(g)[k]) && NonFullM(g)[k] in g
  {
    if |g| > 0 {
      NonFullMRows(g[1..], w);
      var head := if FullM(g[0]) then [] else [g[0]];
      var rest := NonFullM(g[1..]);
      forall k | 0 <= k < |NonFullM(g)|
        ensures !FullM(NonFullM(g)[k]) && NonFullM(g)[k] in g && |NonFullM(g)[k]| == w
      {
        if k >= |head| {
          assert NonFullM(g)[k] == rest[k - |head|];
          assert rest[k - |head|] in g[1..];
        }
      }
    }
  }

  /**
   * The sweep keeps the height and width, leaves no full row (w > 0), and
   * changes nothing when no row is full.
   */
  lemma SweepShape(g: Grid, w: nat)
    requires Rect(g, w) && w > 0
    ensures |Sweep(g, w)| == |g| && Rect(Sweep(g, w), w)
    ensures forall k :: 0 <= k < |g| ==> !FullM(Sweep(g, w)[k])
    ensures CountFullM(g) == 0 ==> Sweep(g, w) == g
  {
    NonFullMRows(g, w);
    var z := ZeroRows(CountFullM(g), w);
    var r := Sweep(g, w);
    forall k | 0 <= k < |g|
      ensures !FullM(r[k])
    {
      if k < |z| {
        assert r[k] == z[k] && r[k][0] == 0;
      } else {
        assert r[k] == NonFullM(g)[k - |z|];
      }
    }
    if CountFullM(g) == 0 {
      NoneFullKept(g);
    }
  }

  /** With no full row, NonFullM keeps every row. */
  lemma {:induction false} NoneFullKept(g: Grid)
    requires CountFullM(g) == 0
    ensures NonFullM(g) == g
  {
    if |g| > 0 {
      NoneFullKept(g[1..]);
      assert g == [g[0]] + g[1..];
    }
  }

  /** Sweeping twice is sweeping once. */
  lemma SweepTwice(g: Grid, w: nat)
    requires Rect(g, w) && w > 0
    ensures Sweep(Sweep(g, w), w) == Sweep(g, w)
  {
    SweepShape(g, w);
    var r := Sweep(g, w);
    NoFullCount(r);
    SweepShape(r, w);
  }

  /** A grid without full rows has a full-row count of 0. */
  lemma {:induction false} NoFullCount(g: Grid)
    requires forall k :: 0 <= k < |g| ==> !FullM(g[k])
    ensures CountFullM(g) == 0
  {
    if |g| > 0 {
      assert !FullM(g[0]);
      NoFullCount(g[1..]);
    }
  }

  /** One step of the sweep loop's bookkeeping: the row at m-1 joins the processed suffix. */
  lemma SuffixStep(orig: Grid, m: nat)
    requires 0 < m <= |orig|
    ensures NonFullM(orig[m - 1..]) == (if FullM(orig[m - 1]) then [] else [orig[m - 1]]) + NonFullM(orig[m..])
    ensures CountFullM(orig[m - 1..]) == (if FullM(orig[m - 1]) then 1 else 0) + CountFullM(orig[m..])
  {
    assert orig[m - 1..][1..] == orig[m..];
  }

  /** The sweep loop's arena: c empty rows, the unexamined rows g[..m], then the survivors of g[m..]. */
  predicate SweepState(g: Grid, w: nat, r: Grid, c: nat, m: nat) {
    m <= |g| && r == ZeroRows(c, w) + g[..m] + NonFullM(g[m..])
  }

  /** While unexamined rows remain, index y = c + m - 1 holds the lowest of them. */
  lemma SweepAt(g: Grid, w: nat, r: Grid, c: nat, m: nat)
    requires SweepState(g, w, r, c, m) && m > 0
    ensures c + m - 1 < |r| && r[c + m - 1] == g[m - 1]
  {
  }

  /** Once every row is examined, the rows above the survivors are empty and so not full. */
  lemma SweepTop(g: Grid, w: nat, r: Grid, c: nat, y: int)
    requires SweepState(g, w, r, c, 0) && 0 <= y < c && w > 0
    ensures y < |r| && !FullM(r[y])
  {
    assert r[y] == ZeroRows(c, w)[y];
    assert r[y][0] == 0;
  }

  /** Removing the full row at y and putting an empty row on top: one more empty row, one row fewer to examine. */
  lemma SweepRemove(g: Grid, w: nat, r: Grid, c: nat, m: nat)
    requires SweepState(g, w, r, c, m) && m > 0 && FullM(g[m - 1])
    ensures var y := c + m - 1;
      y < |r| && SweepState(g, w, [ZeroRow(w)] + r[..y] + r[y + 1..], c + 1, m - 1)
  {
    var y := c + m - 1;
    SuffixStep(g, m);
    var z := ZeroRows(c, w);
    assert r[..y] == z + g[..m - 1];
    assert r[y + 1..] == NonFullM(g[m..]);
    assert [ZeroRow(w)] + z == ZeroRows(c + 1, w);
  }

  /** Keeping the non-full row at y: the same arena, one row fewer to examine. */
  lemma SweepKeep(g: Grid, w: nat, r: Grid, c: nat, m: nat)
    requires SweepState(g, w, r, c, m) && m > 0 && !FullM(g[m - 1])
    ensures SweepState(g, w, r, c, m - 1)
  {
    SuffixStep(g, m);
    assert g[..m] == g[..m - 1] + [g[m - 1]];
  }

  /** With every row examined, the loop's arena is the sweep and its count the number of full rows. */
  lemma SweepDone(g: Grid, w: nat, r: Grid, c: nat)
    requires SweepState(g, w, r, c, 0) && c == CountFullM(g[0..])
    ensures r == Sweep(g, w) && c == CountFullM(g)
  {
    assert g[..0] == [] && g[0..] == g;
  }

  /** `arena.splice(y, 1)` followed by `arena.unshift(row)` with an empty row of width w. */
  function RemoveRow(r: Grid, y: nat, w: nat): Grid
    requires y < |r|
  {
    [ZeroRow(w)] + r[..y] + r[y + 1..]
  }

  /** The sweep loop's invariant at index y with m rows still unexamined and c rows removed. */
  predicate SweepLoop(g: Grid, w: nat, r: Grid, c: nat, m: nat, y: int) {
    SweepState(g, w, r, c, m) && c == CountFullM(g[m..]) &&
    (m > 0 ==> y == c + m - 1) && (m == 0 ==> -1 <= y < c)
  }

  /**
   * One pass of the sweep loop at index y: the row there exists; if it is
   * full it is an unexamined row and removing it keeps the invariant at the
   * same index; otherwise the loop moves one row up.
   */
  lemma SweepStep(g: Grid, w: nat, r: Grid, c: nat, m: nat, y: int)
    requires w > 0 && SweepLoop(g, w, r, c, m, y) && y >= 0
    ensures y < |r|
    ensures FullM(r[y]) ==> m > 0 && SweepLoop(g, w, RemoveRow(r, y, w), c + 1, m - 1, y)
    ensures !FullM(r[y]) ==> SweepLoop(g, w, r, c, if m > 0 then m - 1 else 0, y - 1)
  {
    if m > 0 {
      SweepAt(g, w, r, c, m);
      SuffixStep(g, m);
      if FullM(r[y]) {
        SweepRemove(g, w, r, c, m);
      } else {
        SweepKeep(g, w, r, c, m);
      }
    } else {
      SweepTop(g, w, r, c, y);
    }
  }

  /**
   * `arenaSweep()`: scan from the bottom row up; a full row is removed and an
   * empty row of the same width put on top, and the same index is examined
   * again. Returns the new arena and the number of rows removed. With rows
   * of width 0 the source loops forever, so w > 0 is required.
   */
  method ArenaSweep(g: Grid, w: nat) returns (r: Grid, rowCount: nat)
    requires Rect(g, w) && w > 0
    ensures r == Sweep(g, w)
    ensures rowCount == CountFullM(g)
  {
    r := g;
    rowCount := 0;
    var y := |g| - 1;
    ghost var m: nat := |g|;
    assert g[..m] == g && g[m..] == [];
    while y >= 0
      invariant SweepLoop(g, w, r, rowCount, m, y)
      decreases y + 1 + m
    {
      SweepStep(g, w, r, rowCount, m, y);
      if FullM(r[y]) {
        r := RemoveRow(r, y, w);
        rowCount := rowCount + 1;
        m := m - 1;
      } else {
        if m > 0 {
          m := m - 1;
        }
        y := y - 1;
      }
    }
    SweepDone(g, w, r, rowCount);
  }
}

=== FILE: mobile_game.dfy ===
/**
 * The mobile variant's game state (mobile_tetris/game.js): the 7-bag
 * randomizer, spawning in `playerReset`, sideways moves, the soft drop of
 * `playerDrop`, the hard-drop swipe and the automatic drop of `update`.
 *
 * `Math.random` in `shuffle` is replaced by supplied rolls: the swap
 * partner for index i is roll % (i + 1). Rendering, particles, fireworks,
 * vibration and the raw pointer events are not part of this module; a
 * gesture is given as an already classified `Gesture`.
 *
 * The arena is any rectangle of at least two rows and four columns (the
 * game uses 20 by 10): the source reads its size from the grid itself.
 */
module MobileGame {
  import opened Wrappers
  import opened Matrix
  import opened MobileArena

  // ----- the bag -----

  /** `[1, 2, 3, 4, 5, 6, 7]`, the bag a refill starts from. */
  function FreshBag(): (b: seq<int>)
    ensures |b| == 7 && forall i :: 0 <= i < 7 ==> b[i] == i + 1
  {
    seq(7, i => i + 1)
  }

  /** A bag holds each type 1..7 at most once: it is a sub-multiset of a fresh bag. */
  predicate BagOk(bag: seq<int>) {
    multiset(bag) <= multiset(FreshBag())
  }

  /** Every entry of a well-formed bag is a type in 1..7. */
  lemma BagEntries(bag: seq<int>, k: int)
    requires BagOk(bag) && 0 <= k < |bag|
    ensures 1 <= bag[k] <= 7
  {
    assert bag[k] in multiset(bag);
    assert bag[k] in multiset(FreshBag());
  }

  /** `[array[i], array[j]] = [array[j], array[i]]`. */
  function SwapAt(a: seq<int>, i: nat, j: nat): (r: seq<int>)
    requires i < |a| && j < |a|
    ensures |r| == |a|
  {
    a[i := a[j]][j := a[i]]
  }

  /** The swap permutes the sequence. */
  lemma SwapAtPerm(a: seq<int>, i: nat, j: nat)
    requires i < |a| && j < |a|
    ensures multiset(SwapAt(a, i, j)) == multiset(a)
  {
  }

  /** After the swap, index i holds what index j held. */
  lemma SwapAtFirst(a: seq<int>, i: nat, j: nat)
    requires i < |a| && j < |a|
    ensures SwapAt(a, i, j)[i] == a[j]
  {
    if i != j {
      assert SwapAt(a, i, j)[i] == a[i := a[j]][i];
    }
  }

  /** `Math.floor(Math.random() * n)` with the random draw supplied as a roll: an index below n. */
  function Pick(roll: nat, n: nat): (j: nat)
    requires n > 0
    ensures j < n
  {
    roll % n
  }

  /** The swap leaves every other index alone. */
  lemma SwapAtOther(a: seq<int>, i: nat, j: nat, k: nat)
    requires i < |a| && j < |a| && k < |a| && k != i && k != j
    ensures SwapAt(a, i, j)[k] == a[k]
  {
  }

  /**
   * The loop of `shuffle` from index i down to 1: swap index i with
   * roll % (i + 1), one roll per index. Indices above i are not touched.
   */
  function ShuffleDown(a: seq<int>, i: nat, rolls: seq<nat>): (r: seq<int>)
    requires i < |a| && |rolls| >= i
    ensures |r| == |a| && multiset(r) == multiset(a)
    ensures forall k :: i < k < |a| ==> r[k] == a[k]
    decreases i
  {
    if i == 0 then a
    else
      var b := SwapAt(a, i, Pick(rolls[0], i + 1));
      assert forall k :: i < k < |a| ==> b[k] == a[k];
      SwapAtPerm(a, i, Pick(rolls[0], i + 1));
      ShuffleDown(b, i - 1, rolls[1..])
  }

  /** `shuffle(array)`, Fisher-Yates from the last index down: a permutation of the input. */
  function Shuffle(a: seq<int>, rolls: seq<nat>): (r: seq<int>)
    requires |rolls| + 1 >= |a|
    ensures |r| == |a| && multiset(r) == multiset(a)
  {
    if |a| == 0 then a else ShuffleDown(a, |a| - 1, rolls)
  }

  /** One iteration of the loop: swap index i with the picked index, then continue from i - 1. */
  lemma ShuffleDownStep(a: seq<int>, i: nat, rolls: seq<nat>)
    requires 0 < i < |a| && |rolls| >= i
    ensures ShuffleDown(a, i, rolls) == ShuffleDown(SwapAt(a, i, Pick(rolls[0], i + 1)), i - 1, rolls[1..])
  {
  }

  /** The first step of `shuffle` swaps the last index with the entry the first roll picks. */
  lemma ShuffleFirstStep(a: seq<int>, rolls: seq<nat>)
    requires |a| >= 2 && |rolls| + 1 >= |a|
    ensures Shuffle(a, rolls) == ShuffleDown(SwapAt(a, |a| - 1, Pick(rolls[0], |a|)), |a| - 2, rolls[1..])
  {
  }

  /**
   * The last element of a shuffled bag, the first one handed out, is the
   * entry the first roll picks; later swaps never move it.
   */
  lemma {:induction false} ShuffleFirstPick(a: seq<int>, rolls: seq<nat>)
    requires |a| >= 2 && |rolls| + 1 >= |a|
    ensures Shuffle(a, rolls)[|a| - 1] == a[Pick(rolls[0], |a|)]
  {
    var n := |a|;
    var j := Pick(rolls[0], n);
    var b := SwapAt(a, n - 1, j);
    var r := ShuffleDown(b, n - 2, rolls[1..]);
    assert r[n - 1] == b[n - 1];
    assert b[n - 1] == a[j] by {
      SwapAtFirst(a, n - 1, j);
    }
    assert Shuffle(a, rolls) == r by {
      ShuffleFirstStep(a, rolls);
    }
  }

  /** The matrix and type index `getNextPiece` hands out. */
  datatype MPiece = MPiece(matrix: Grid, index: int)

  /** A piece straight from the table. */
  predicate FromTable(p: MPiece) {
    1 <= p.index <= 7 && p.matrix == Pieces(p.index)
  }

  /** The piece `getNextPiece` returns and the bag it leaves. */
  datatype Draw = Draw(piece: MPiece, bag: seq<int>)

  /**
   * `getNextPiece()`: an empty bag is first refilled with a shuffled fresh
   * bag (six rolls); then the last entry is popped and its table matrix
   * copied.
   */
  function GetNextPiece(bag: seq<int>, rolls: seq<nat>): (d: Draw)
    requires BagOk(bag) && |rolls| >= 6
    ensures FromTable(d.piece) && BagOk(d.bag)
    ensures |bag| > 0 ==> d.piece.index == bag[|bag| - 1] && d.bag == bag[..|bag| - 1]
    ensures |bag| == 0 ==> multiset(d.bag + [d.piece.index]) == multiset(FreshBag()) && |d.bag| == 6
  {
    var full := if |bag| == 0 then Shuffle(FreshBag(), rolls) else bag;
    Pop(full);
    assert |full[..|full| - 1]| == |full| - 1;
    var t := full[|full| - 1];
    Draw(MPiece(Pieces(t), t), full[..|full| - 1])
  }

  /** Popping the last entry of a non-empty well-formed bag: a type in 1..7 and a smaller well-formed bag. */
  lemma Pop(full: seq<int>)
    requires BagOk(full) && |full| > 0
    ensures 1 <= full[|full| - 1] <= 7 && BagOk(full[..|full| - 1])
    ensures multiset(full[..|full| - 1] + [full[|full| - 1]]) == multiset(full)
  {
    assert full == full[..|full| - 1] + [full[|full| - 1]];
    BagEntries(full, |full| - 1);
  }

  /** The types handed out by successive draws, one roll sequence per draw, and the bag left at the end. */
  function Draws(bag: seq<int>, rs: seq<seq<nat>>): (r: (seq<int>, seq<int>))
    requires BagOk(bag) && forall k :: 0 <= k < |rs| ==> |rs[k]| >= 6
    ensures |r.0| == |rs| && BagOk(r.1)
    decreases |rs|
  {
    if |rs| == 0 then ([], bag)
    else
      var d := GetNextPiece(bag, rs[0]);
      var rest := Draws(d.bag, rs[1..]);
      ([d.piece.index] + rest.0, rest.1)
  }

  /** A non-empty bag is handed out back to front and ends empty, whatever the rolls. */
  lemma {:induction false} DrawsEmptyBag(bag: seq<int>, rs: seq<seq<nat>>)
    requires BagOk(bag) && |rs| == |bag| && forall k :: 0 <= k < |rs| ==> |rs[k]| >= 6
    ensures Draws(bag, rs) == (Reverse(bag), [])
    decreases |rs|
  {
    if |rs| > 0 {
      var d := GetNextPiece(bag, rs[0]);
      DrawsEmptyBag(d.bag, rs[1..]);
      ReverseLast(bag);
    }
  }

  /** `[x]` followed by the reversal of `b` holds the same types as `b + [x]`. */
  lemma ConsReverse(x: int, b: seq<int>)
    ensures multiset([x] + Reverse(b)) == multiset(b + [x])
  {
    ReverseMultiset(b);
    assert multiset([x] + Reverse(b)) == multiset([x]) + multiset(Reverse(b));
    assert multiset(b + [x]) == multiset(b) + multiset([x]);
  }

  /** Every roll sequence after the first is still long enough for a draw. */
  lemma TailRolls(rs: seq<seq<nat>>)
    requires |rs| > 0 && forall k :: 0 <= k < |rs| ==> |rs[k]| >= 6
    ensures forall k :: 0 <= k < |rs| - 1 ==> |rs[1..][k]| >= 6
  {
    forall k | 0 <= k < |rs| - 1
      ensures |rs[1..][k]| >= 6
    {
      assert rs[1..][k] == rs[k + 1];
    }
  }

  /** One draw of `Draws`. */
  lemma DrawsStep(bag: seq<int>, rs: seq<seq<nat>>)
    requires BagOk(bag) && |rs| > 0 && forall k :: 0 <= k < |rs| ==> |rs[k]| >= 6
    ensures var d := GetNextPiece(bag, rs[0]);
      Draws(bag, rs) == ([d.piece.index] + Draws(d.bag, rs[1..]).0, Draws(d.bag, rs[1..]).1)
  {
  }

  /** When the rolls last exactly as long as the bag left by the first draw, the rest of that bag follows back to front. */
  lemma DrawsAfterFirst(bag: seq<int>, rs: seq<seq<nat>>)
    requires BagOk(bag) && |rs| > 0 && forall k :: 0 <= k < |rs| ==> |rs[k]| >= 6
    requires |rs| == |GetNextPiece(bag, rs[0]).bag| + 1
    ensures var d := GetNextPiece(bag, rs[0]);
      Draws(bag, rs) == ([d.piece.index] + Reverse(d.bag), [])
  {
    var d := GetNextPiece(bag, rs[0]);
    var rest := rs[1..];
    assert forall k :: 0 <= k < |rest| ==> |rest[k]| >= 6 by {
      TailRolls(rs);
    }
    assert Draws(d.bag, rest) == (Reverse(d.bag), []) by {
      DrawsEmptyBag(d.bag, rest);
    }
    DrawsStep(bag, rs);
  }

  /** The seven draws that follow an empty bag hand out every type exactly once and empty the bag again. */
  lemma SevenDraws(bag: seq<int>, rs: seq<seq<nat>>)
    requires |bag| == 0 && |rs| == 7 && forall k :: 0 <= k < |rs| ==> |rs[k]| >= 6
    ensures multiset(Draws(bag, rs).0) == multiset(FreshBag())
    ensures Draws(bag, rs).1 == []
  {
    var d := GetNextPiece(bag, rs[0]);
    DrawsAfterFirst(bag, rs);
    ConsReverse(d.piece.index, d.bag);
  }

  // ----- state -----

  /** The arena: a rectangle of at least two rows and four columns, the room the widest spawn needs. */
  predicate ArenaOk(a: Grid) {
    |a| >= 2 && |a[0]| >= 4 && Rect(a, |a[0]|)
  }

  /** A player matrix: at least one row and column, rectangular, with a non-zero cell. */
  predicate Shaped(m: Grid) {
    |m| > 0 && |m[0]| > 0 && Rect(m, |m[0]|) && HasCell(m)
  }

  lemma PiecesShaped(t: int)
    requires 1 <= t <= 7
    ensures Shaped(Pieces(t))
  {
    PiecesTable(t);
    PiecesHaveCell(t);
  }

  /**
   * The game: arena, player, the stored next piece (absent before the
   * first spawn), the bag, the score and the time since the last drop.
   */
  datatype MGame = MGame(arena: Grid, player: Player, next: Option<MPiece>, bag: seq<int>, score: int, dropCounter: int)

  /** What holds between events once the game has started. */
  predicate Inv(g: MGame) {
    ArenaOk(g.arena) && Shaped(g.player.matrix) &&
    !Collide(g.arena, g.player.matrix, g.player.x, g.player.y) &&
    g.next.Some? && FromTable(g.next.value) && BagOk(g.bag) && g.score >= 0
  }

  // ----- playerReset -----

  /** `(grid[0].length / 2 | 0) - (player.matrix[0].length / 2 | 0)`. */
  function SpawnX(a: Grid, m: Grid): int
    requires |a| > 0 && |m| > 0
  {
    |a[0]| / 2 - |m[0]| / 2
  }

  /** `grid.forEach(row => row.fill(0))`: every cell 0, every row keeping its length. */
  function ClearArena(a: Grid): (r: Grid)
    ensures SameShape(r, a)
    ensures forall i, j :: 0 <= i < |r| && 0 <= j < |r[i]| ==> r[i][j] == 0
  {
    seq(|a|, i requires 0 <= i < |a| => ZeroRow(|a[i]|))
  }

  lemma ClearedOk(a: Grid)
    requires ArenaOk(a)
    ensures ArenaOk(ClearArena(a)) && |ClearArena(a)[0]| == |a[0]|
  {
  }

  /** A freshly spawned table piece on free cells, with a table next piece, satisfies the invariant. */
  lemma SpawnedInv(a: Grid, cur: MPiece, next: MPiece, bag: seq<int>, score: int, dc: int)
    requires ArenaOk(a) && FromTable(cur) && FromTable(next) && BagOk(bag) && score >= 0
    requires !Collide(a, cur.matrix, SpawnX(a, cur.matrix), 0)
    ensures Inv(MGame(a, Player(cur.matrix, SpawnX(a, cur.matrix), 0), Some(next), bag, score, dc))
  {
    PiecesShaped(cur.index);
  }

  /** A table piece at its spawn position fits an empty arena. */
  lemma SpawnFitsEmpty(a: Grid, t: int)
    requires ArenaOk(a) && 1 <= t <= 7
    requires forall i, j :: 0 <= i < |a| && 0 <= j < |a[i]| ==> a[i][j] == 0
    ensures !Collide(a, Pieces(t), SpawnX(a, Pieces(t)), 0)
  {
    var m := Pieces(t);
    PiecesTable(t);
    var px := SpawnX(a, m);
    assert 0 <= px && px + |m[0]| <= |a[0]|;
    CollideOverlaps(a, m, px, 0);
    forall y, x | 0 <= y < |m| && 0 <= x < |m[y]| && m[y][x] != 0
      ensures !Blocked(a, y, x + px)
    {
      assert |m[y]| == |m[0]|;
    }
  }

  /** The piece the player gets, and the next piece and bag left by the draws of `playerReset`. */
  function Draw2(next: Option<MPiece>, bag: seq<int>, rolls: seq<nat>): (r: (MPiece, MPiece, seq<int>))
    requires BagOk(bag) && |rolls| >= 6 && (next.Some? ==> FromTable(next.value))
    ensures FromTable(r.0) && FromTable(r.1) && BagOk(r.2)
    ensures next.Some? ==> r.0 == next.value && Draw(r.1, r.2) == GetNextPiece(bag, rolls)
    ensures next.None? ==> var d := GetNextPiece(bag, rolls);
      r.1 == d.piece && Draw(r.0, r.2) == GetNextPiece(d.bag, rolls)
  {
    var d := GetNextPiece(bag, rolls);
    if next.Some? then (next.value, d.piece, d.bag)
    else
      var e := GetNextPiece(d.bag, rolls);
      (e.piece, d.piece, e.bag)
  }

  /**
   * `playerReset()`: the stored next piece becomes the player and one new
   * piece is drawn; at startup the next piece is drawn first and then the
   * player's. The player goes to row 0, centred; if it collides there,
   * every arena cell becomes 0 and the score 0. Either way the player ends
   * on free cells.
   */
  function PlayerReset(g: MGame, rolls: seq<nat>): (r: MGame)
    requires ArenaOk(g.arena) && BagOk(g.bag) && |rolls| >= 6 && g.score >= 0
    requires g.next.Some? ==> FromTable(g.next.value)
    ensures Inv(r)
    ensures r.player.y == 0 && r.player.x == SpawnX(r.arena, r.player.matrix)
    ensures g.next.Some? ==> r.player.matrix == g.next.value.matrix
    ensures var spawn := r.player.matrix;
      if Collide(g.arena, spawn, SpawnX(g.arena, spawn), 0)
      then r.arena == ClearArena(g.arena) && r.score == 0
      else r.arena == g.arena && r.score == g.score
    ensures r.dropCounter == g.dropCounter
    ensures g.next.Some? ==> Draw(r.next.value, r.bag) == GetNextPiece(g.bag, rolls)
  {
    var (cur, next, bag) := Draw2(g.next, g.bag, rolls);
    var m := cur.matrix;
    PiecesShaped(cur.index);
    if Collide(g.arena, m, SpawnX(g.arena, m), 0) then
      var cleared := ClearArena(g.arena);
      ClearedOk(g.arena);
      SpawnFitsEmpty(cleared, cur.index);
      SpawnedInv(cleared, cur, next, bag, 0, g.dropCounter);
      MGame(cleared, Player(m, SpawnX(cleared, m), 0), Some(next), bag, 0, g.dropCounter)
    else
      SpawnedInv(g.arena, cur, next, bag, g.score, g.dropCounter);
      MGame(g.arena, Player(m, SpawnX(g.arena, m), 0), Some(next), bag, g.score, g.dropCounter)
  }

  /** `playerReset()` at startup: an empty arena, no next piece, an empty bag; the spawn cannot collide. */
  function Start(rolls: seq<nat>): (r: MGame)
    requires |rolls| >= 6
    ensures Inv(r) && r.arena == CreateGrid() && r.score == 0
    ensures var d := GetNextPiece([], rolls);
      r.next == Some(d.piece) && r.player.matrix == GetNextPiece(d.bag, rolls).piece.matrix
  {
    var a := CreateGrid();
    ResetOnEmpty(a, rolls);
    PlayerReset(MGame(a, Player([], 0, 0), None, [], 0, 0), rolls)
  }

  /** The first `playerReset` on an empty arena keeps the arena and hands out the next piece, then the player's. */
  lemma ResetOnEmpty(a: Grid, rolls: seq<nat>)
    requires ArenaOk(a) && |rolls| >= 6
    requires forall i, j :: 0 <= i < |a| && 0 <= j < |a[i]| ==> a[i][j] == 0
    ensures var r := PlayerReset(MGame(a, Player([], 0, 0), None, [], 0, 0), rolls);
      var d := GetNextPiece([], rolls);
      r.arena == a && r.score == 0 && r.next == Some(d.piece) &&
      r.player.matrix == GetNextPiece(d.bag, rolls).piece.matrix
  {
    var (cur, _, _) := Draw2(None, [], rolls);
    SpawnFitsEmpty(a, cur.index);
  }

  // ----- move and rotate -----

  /**
   * `move(dir)`: the player shifts by dir exactly when the shifted matrix
   * does not collide; otherwise nothing changes.
   */
  function Move(g: MGame, dir: int): (r: MGame)
    requires Inv(g)
    ensures Inv(r) && r == g.(player := r.player)
    ensures r.player.matrix == g.player.matrix && r.player.y == g.player.y
    ensures r.player.x == g.player.x + dir <==> !Collide(g.arena, g.player.matrix, g.player.x + dir, g.player.y)
    ensures r.player.x != g.player.x + dir ==> r == g
  {
    var p := g.player.(x := g.player.x + dir);
    if Collide(g.arena, p.matrix, p.x, p.y) then g else g.(player := p)
  }

  /** A move that went through is undone by the opposite move. */
  lemma MoveBack(g: MGame, dir: int)
    requires Inv(g) && Move(g, dir).player.x == g.player.x + dir
    ensures Move(Move(g, dir), -dir) == g
  {
  }

  /** The tap: `playerRotate(1)`, here with the quarter turn (see `PlayerRotateFixed`). */
  function Rotate(g: MGame, dir: int): (r: MGame)
    requires Inv(g) && dir != 0
    ensures Inv(r) && r == g.(player := r.player)
    ensures r == g || r.player.matrix == QuarterTurn(g.player.matrix, dir)
  {
    var r := PlayerRotateFixed(g.arena, g.player, dir);
    QuarterTurnHasCell(g.player.matrix, dir);
    g.(player := r)
  }

  // ----- falling -----

  /** A player on free cells, with a non-zero cell, is above the arena's last row. */
  lemma AboveFloor(a: Grid, m: Grid, x: int, y: int)
    requires HasCell(m) && !Collide(a, m, x, y)
    ensures y < |a|
  {
    CollideOverlaps(a, m, x, y);
    var i, j :| 0 <= i < |m| && 0 <= j < |m[i]| && m[i][j] != 0;
    assert !Blocked(a, i + y, j + x);
  }

  /**
   * Where the player comes to rest straight below: every row from its
   * start down to the result is free, and one row lower collides.
   */
  function Fall(a: Grid, p: Player): (r: Player)
    requires HasCell(p.matrix) && !Collide(a, p.matrix, p.x, p.y)
    ensures r.matrix == p.matrix && r.x == p.x && r.y >= p.y
    ensures forall y :: p.y <= y <= r.y ==> !Collide(a, p.matrix, p.x, y)
    ensures Collide(a, r.matrix, r.x, r.y + 1)
    decreases |a| - p.y
  {
    AboveFloor(a, p.matrix, p.x, p.y);
    if Collide(a, p.matrix, p.x, p.y + 1) then p else Fall(a, p.(y := p.y + 1))
  }

  /**
   * The swipe's descent: `while (!collide(grid, player)) player.pos.y++;`
   * then one row back. It stops exactly where `Fall` says.
   */
  method SwipeDescent(a: Grid, p: Player) returns (landed: Player)
    requires HasCell(p.matrix) && !Collide(a, p.matrix, p.x, p.y)
    ensures landed == Fall(a, p)
  {
    ghost var f := Fall(a, p);
    var y := p.y;
    while !Collide(a, p.matrix, p.x, y)
      invariant p.y <= y <= f.y + 1
      decreases f.y + 1 - y
    {
      y := y + 1;
    }
    landed := p.(y := y - 1);
  }

  // ----- locking a piece -----

  /** Merging keeps the arena's shape. */
  lemma MergeOk(g: MGame)
    requires Inv(g)
    ensures Lands(g.arena, g.player.matrix, g.player.x, g.player.y, false)
    ensures ArenaOk(Merge(g.arena, g.player))
  {
    NoCollideLands(g.arena, g.player.matrix, g.player.x, g.player.y);
  }

  /** The arena after `merge(grid, player)`. */
  function Merged(g: MGame): (a: Grid)
    requires Inv(g)
    ensures ArenaOk(a) && |a[0]| == |g.arena[0]|
    ensures Lands(g.arena, g.player.matrix, g.player.x, g.player.y, false) && a == Merge(g.arena, g.player)
  {
    MergeOk(g);
    Merge(g.arena, g.player)
  }

  /** Sweeping keeps the arena's shape. */
  lemma SweepOk(a: Grid)
    requires ArenaOk(a)
    ensures ArenaOk(Sweep(a, |a[0]|)) && |Sweep(a, |a[0]|)[0]| == |a[0]|
  {
    SweepShape(a, |a[0]|);
  }

  /**
   * `playerReset` then `arenaSweep` on an arena the piece is already merged
   * into: the spawn test sees the unswept arena. On a collision the arena
   * is wiped first, so the sweep finds nothing.
   */
  function ResetThenSweep(h: MGame, rolls: seq<nat>): (r: MGame)
    requires ArenaOk(h.arena) && BagOk(h.bag) && |rolls| >= 6 && h.score >= 0
    requires h.next.Some? && FromTable(h.next.value)
    ensures ArenaOk(r.arena) && r.score >= 0 && r.dropCounter == h.dropCounter
    ensures r.next.Some? && Draw(r.next.value, r.bag) == GetNextPiece(h.bag, rolls)
    ensures var s := h.next.value.matrix;
      r.player == Player(s, SpawnX(h.arena, s), 0) &&
      if Collide(h.arena, s, SpawnX(h.arena, s), 0)
      then r.arena == ClearArena(h.arena) && r.score == 0
      else r.arena == Sweep(h.arena, |h.arena[0]|) && r.score == h.score + 10 * CountFullM(h.arena)
  {
    var g1 := PlayerReset(h, rolls);
    SweepOk(g1.arena);
    ClearedSweep(h.arena);
    ClearedOk(h.arena);
    g1.(arena := Sweep(g1.arena, |g1.arena[0]|), score := g1.score + 10 * CountFullM(g1.arena))
  }

  /**
   * The landing sequence as written in `playerDrop` and the swipe:
   * `merge`, then `playerReset` (whose spawn test sees the unswept arena),
   * then `arenaSweep` adding 10 points per removed row.
   */
  function LockAsWritten(g: MGame, rolls: seq<nat>): (r: MGame)
    requires Inv(g) && |rolls| >= 6
    ensures ArenaOk(r.arena) && r.score >= 0 && r.dropCounter == g.dropCounter
    ensures r.next.Some? && Draw(r.next.value, r.bag) == GetNextPiece(g.bag, rolls)
    ensures var merged := Merged(g); var s := g.next.value.matrix;
      r.player == Player(s, SpawnX(merged, s), 0) &&
      if Collide(merged, s, SpawnX(merged, s), 0)
      then r.arena == ClearArena(merged) && r.score == 0
      else r.arena == Sweep(merged, |merged[0]|) && r.score == g.score + 10 * CountFullM(merged)
  {
    ResetThenSweep(g.(arena := Merged(g)), rolls)
  }

  /** A cleared arena has no full row, so the sweep leaves it as it is and scores nothing. */
  lemma ClearedSweep(a: Grid)
    requires ArenaOk(a)
    ensures CountFullM(ClearArena(a)) == 0 && Sweep(ClearArena(a), |a[0]|) == ClearArena(a)
  {
    var c := ClearArena(a);
    ClearedOk(a);
    forall k | 0 <= k < |c|
      ensures !FullM(c[k])
    {
      assert c[k][0] == 0;
    }
    NoFullCount(c);
    SweepShape(c, |a[0]|);
  }

  /**
   * The landing sequence with the sweep before the spawn: `merge`,
   * `arenaSweep` (10 points per removed row), then `playerReset`. The new
   * player always ends on free cells. None of the three reads the drop
   * counter, so it is set aside and handed back unchanged.
   */
  function Lock(g: MGame, rolls: seq<nat>): (r: MGame)
    requires Inv(g) && |rolls| >= 6
    ensures Inv(r) && r.dropCounter == g.dropCounter
    ensures var merged := Merged(g);
      var swept := Sweep(merged, |merged[0]|);
      if Collide(swept, r.player.matrix, SpawnX(swept, r.player.matrix), 0)
      then r.arena == ClearArena(swept) && r.score == 0
      else r.arena == swept && r.score == g.score + 10 * CountFullM(merged)
    ensures r.player.matrix == g.next.value.matrix
    ensures r.player.y == 0 && r.player.x == SpawnX(r.arena, r.player.matrix)
    ensures r.next.Some? && Draw(r.next.value, r.bag) == GetNextPiece(g.bag, rolls)
  {
    var merged := Merged(g);
    SweepOk(merged);
    var swept := Sweep(merged, |merged[0]|);
    var landed := MGame(swept, g.player, g.next, g.bag, g.score + 10 * CountFullM(merged), 0);
    var r := PlayerReset(landed, rolls);
    assert Inv(r.(dropCounter := g.dropCounter));
    r.(dropCounter := g.dropCounter)
  }

  // ----- the spawn test before the sweep -----

  /**
   * A three-row arena with one block at the top, an I piece lying on the
   * bottom row and S stored as the next piece.
   */
  const LOCK_EXAMPLE: MGame :=
    MGame([[0, 5, 0, 0], [0, 0, 0, 0], [0, 0, 0, 0]], Player([[7, 7, 7, 7]], 0, 2),
          Some(MPiece([[0, 3, 3], [3, 3, 0]], 3)), [1], 0, 0)

  /** The example is a reachable-looking state: the I piece rests on free cells. */
  lemma LockExampleInv()
    ensures Inv(LOCK_EXAMPLE)
  {
    var g := LOCK_EXAMPLE;
    PiecesShaped(7);
    assert g.player.matrix == Pieces(7);
    assert g.next.value.matrix == Pieces(3);
    CollideOverlaps(g.arena, g.player.matrix, 0, 2);
    assert multiset(g.bag) <= multiset(FreshBag()) by {
      assert FreshBag()[0] == 1;
    }
  }

  /** Merging the I piece fills the bottom row. */
  lemma LockExampleMerged()
    ensures Inv(LOCK_EXAMPLE)
    ensures Merged(LOCK_EXAMPLE) == [[0, 5, 0, 0], [0, 0, 0, 0], [7, 7, 7, 7]]
  {
    LockExampleInv();
    LockExampleMerge(LOCK_EXAMPLE.arena, LOCK_EXAMPLE.player);
  }

  /** The merge step of the example, on the arena and player alone. */
  lemma LockExampleMerge(a: Grid, p: Player)
    requires a == [[0, 5, 0, 0], [0, 0, 0, 0], [0, 0, 0, 0]] && p == Player([[7, 7, 7, 7]], 0, 2)
    requires Lands(a, p.matrix, p.x, p.y, false)
    ensures Merge(a, p) == [[0, 5, 0, 0], [0, 0, 0, 0], [7, 7, 7, 7]]
  {
    var r := Merge(a, p);
    var e: Grid := [[0, 5, 0, 0], [0, 0, 0, 0], [7, 7, 7, 7]];
    forall i | 0 <= i < 3
      ensures r[i] == e[i]
    {
      assert |r[i]| == 4;
      forall j | 0 <= j < 4
        ensures r[i][j] == e[i][j]
      {
        assert Covers(p.matrix, 0, 2, i, j, false) <==> i == 2;
      }
    }
  }

  /** The sweep of the merged arena removes the bottom row and moves the block down one row. */
  lemma LockExampleSweep()
    ensures CountFullM([[0, 5, 0, 0], [0, 0, 0, 0], [7, 7, 7, 7]]) == 1
    ensures Sweep([[0, 5, 0, 0], [0, 0, 0, 0], [7, 7, 7, 7]], 4) == [[0, 0, 0, 0], [0, 5, 0, 0], [0, 0, 0, 0]]
  {
    var m: Grid := [[0, 5, 0, 0], [0, 0, 0, 0], [7, 7, 7, 7]];
    assert !FullM(m[0]) && !FullM(m[1]) && FullM(m[2]) by {
      assert m[0][0] == 0 && m[1][0] == 0;
    }
    assert m[1..][1..] == [m[2]] && m[1..][1..][1..] == [];
    assert NonFullM(m) == [m[0], m[1]];
    assert ZeroRows(1, 4) == [[0, 0, 0, 0]] by {
      var z := ZeroRows(1, 4);
      assert z[0] == [0, 0, 0, 0] by {
        assert |z[0]| == 4 && z[0][0] == 0 && z[0][1] == 0 && z[0][2] == 0 && z[0][3] == 0;
      }
    }
  }

  /** S is three cells wide, so on a four-column arena it spawns at column 1. */
  lemma LockExampleSpawnX()
    ensures SpawnX([[0, 5, 0, 0], [0, 0, 0, 0], [7, 7, 7, 7]], [[0, 3, 3], [3, 3, 0]]) == 1
  {
  }

  /** On the swept arena, the bottom-left cell of S at (1, 0) lands on the block. */
  lemma LockExampleOverlap()
    ensures Collide([[0, 0, 0, 0], [0, 5, 0, 0], [0, 0, 0, 0]], [[0, 3, 3], [3, 3, 0]], 1, 0)
  {
    CollideAt([[0, 0, 0, 0], [0, 5, 0, 0], [0, 0, 0, 0]], [[0, 3, 3], [3, 3, 0]], 1, 0, 1, 0);
  }

  /** S spawns at column 1 of the unswept arena without touching anything. */
  lemma LockExampleSpawnFits()
    ensures !Collide([[0, 5, 0, 0], [0, 0, 0, 0], [7, 7, 7, 7]], [[0, 3, 3], [3, 3, 0]], 1, 0)
  {
    var a: Grid := [[0, 5, 0, 0], [0, 0, 0, 0], [7, 7, 7, 7]];
    var m: Grid := [[0, 3, 3], [3, 3, 0]];
    CollideOverlaps(a, m, 1, 0);
    forall y, x | 0 <= y < |m| && 0 <= x < |m[y]| && m[y][x] != 0
      ensures !Blocked(a, y, x + 1)
    {
      assert (y == 0 && 1 <= x) || (y == 1 && x < 2);
    }
  }

  /**
   * In the order the source uses, the new S piece passes the spawn test on
   * the unswept arena, the sweep then moves the block down onto it, and the
   * state left behind has the player overlapping a block.
   */
  lemma LockAsWrittenOverlaps(rolls: seq<nat>)
    requires |rolls| >= 6
    ensures Inv(LOCK_EXAMPLE)
    ensures var r := LockAsWritten(LOCK_EXAMPLE, rolls);
      r.player == Player([[0, 3, 3], [3, 3, 0]], 1, 0) &&
      r.arena == [[0, 0, 0, 0], [0, 5, 0, 0], [0, 0, 0, 0]] &&
      Collide(r.arena, r.player.matrix, r.player.x, r.player.y)
  {
    LockExampleMerged();
    LockExampleSweep();
    LockExampleSpawnFits();
    LockExampleSpawnX();
    LockAsWrittenSpawn(LOCK_EXAMPLE, rolls);
    LockExampleOverlap();
  }

  /**
   * When the next piece fits at its spawn position on the merged, unswept
   * arena, the order the source uses keeps that position and sweeps the
   * arena underneath it.
   */
  lemma LockAsWrittenSpawn(g: MGame, rolls: seq<nat>)
    requires Inv(g) && |rolls| >= 6
    requires var merged := Merged(g); var s := g.next.value.matrix;
      !Collide(merged, s, SpawnX(merged, s), 0)
    ensures var merged := Merged(g); var s := g.next.value.matrix; var r := LockAsWritten(g, rolls);
      r.player == Player(s, SpawnX(merged, s), 0) && r.arena == Sweep(merged, |merged[0]|)
  {
  }

  /**
   * `playerDrop()`: one row down when that row is free; otherwise the
   * piece locks where it is. Either way the drop counter restarts.
   */
  function PlayerDrop(g: MGame, rolls: seq<nat>): (r: MGame)
    requires Inv(g) && |rolls| >= 6
    ensures Inv(r) && r.dropCounter == 0
    ensures if Collide(g.arena, g.player.matrix, g.player.x, g.player.y + 1)
      then r == Lock(g, rolls).(dropCounter := 0)
      else r == g.(player := g.player.(y := g.player.y + 1), dropCounter := 0)
  {
    var down := g.player.(y := g.player.y + 1);
    if Collide(g.arena, down.matrix, down.x, down.y) then Lock(g, rolls).(dropCounter := 0)
    else g.(player := down, dropCounter := 0)
  }

  /** The downward swipe: fall to rest, then lock; the drop counter is left alone. */
  function SwipeDrop(g: MGame, rolls: seq<nat>): (r: MGame)
    requires Inv(g) && |rolls| >= 6
    ensures Inv(r) && r.dropCounter == g.dropCounter
    ensures r == Lock(g.(player := Fall(g.arena, g.player)), rolls)
  {
    Lock(g.(player := Fall(g.arena, g.player)), rolls)
  }

  /**
   * `playerDrop()` and the swipe as the source orders them, locking through
   * `LockAsWritten`; the result need not satisfy the invariant.
   */
  function PlayerDropAsWritten(g: MGame, rolls: seq<nat>): (r: MGame)
    requires Inv(g) && |rolls| >= 6
    ensures r.dropCounter == 0 && ArenaOk(r.arena) && r.score >= 0
    ensures var down := g.player.(y := g.player.y + 1);
      if Collide(g.arena, down.matrix, down.x, down.y)
      then r == LockAsWritten(g, rolls).(dropCounter := 0)
      else Inv(r) && r == g.(player := down, dropCounter := 0)
  {
    var down := g.player.(y := g.player.y + 1);
    if Collide(g.arena, down.matrix, down.x, down.y) then LockAsWritten(g, rolls).(dropCounter := 0)
    else g.(player := down, dropCounter := 0)
  }

  /** The swipe as the source orders it: fall to rest, then `LockAsWritten`. */
  function SwipeDropAsWritten(g: MGame, rolls: seq<nat>): (r: MGame)
    requires Inv(g) && |rolls| >= 6
    ensures ArenaOk(r.arena) && r.dropCounter == g.dropCounter
    ensures r == LockAsWritten(g.(player := Fall(g.arena, g.player)), rolls)
  {
    LockAsWritten(g.(player := Fall(g.arena, g.player)), rolls)
  }

  /** The swipe is the timed drop taken from the resting row, with the drop counter left alone. */
  lemma SwipeIsDrop(g: MGame, rolls: seq<nat>)
    requires Inv(g) && |rolls| >= 6
    ensures var f := g.(player := Fall(g.arena, g.player));
      Inv(f) && SwipeDrop(g, rolls) == PlayerDrop(f, rolls).(dropCounter := g.dropCounter)
  {
    var f := g.(player := Fall(g.arena, g.player));
    assert Inv(f);
    PlayerDropLocks(f, rolls);
  }

  /** The same holds for the source's order: the swipe is the as-written drop from the resting row. */
  lemma SwipeAsWrittenIsDrop(g: MGame, rolls: seq<nat>)
    requires Inv(g) && |rolls| >= 6
    ensures var f := g.(player := Fall(g.arena, g.player));
      Inv(f) && SwipeDropAsWritten(g, rolls) == PlayerDropAsWritten(f, rolls).(dropCounter := g.dropCounter)
  {
    var f := g.(player := Fall(g.arena, g.player));
    assert Inv(f);
    var down := f.player.(y := f.player.y + 1);
    assert Collide(f.arena, down.matrix, down.x, down.y);
  }

  /** When the lock removes no row, the source's order and the corrected one agree. */
  lemma LockOrdersAgree(g: MGame, rolls: seq<nat>)
    requires Inv(g) && |rolls| >= 6 && CountFullM(Merged(g)) == 0
    ensures LockAsWritten(g, rolls) == Lock(g, rolls)
  {
    var merged := Merged(g);
    SweepShape(merged, |merged[0]|);
    ClearedSweep(merged);
    ClearedOk(merged);
    assert g.(arena := merged, score := g.score + 10 * CountFullM(merged)) == g.(arena := merged);
  }

  /** So `playerDrop` as written and corrected differ only on drops that clear a row. */
  lemma DropOrdersAgree(g: MGame, rolls: seq<nat>)
    requires Inv(g) && |rolls| >= 6 && CountFullM(Merged(g)) == 0
    ensures PlayerDropAsWritten(g, rolls) == PlayerDrop(g, rolls)
  {
    LockOrdersAgree(g, rolls);
  }

  /** On the example game, the timed drop as written locks the I piece and leaves the S piece overlapping a block. */
  lemma DropAsWrittenOverlaps(rolls: seq<nat>)
    requires |rolls| >= 6
    ensures Inv(LOCK_EXAMPLE)
    ensures var r := PlayerDropAsWritten(LOCK_EXAMPLE, rolls);
      Collide(r.arena, r.player.matrix, r.player.x, r.player.y)
  {
    LockAsWrittenOverlaps(rolls);
    var p := LOCK_EXAMPLE.player;
    CollideAt(LOCK_EXAMPLE.arena, p.matrix, p.x, p.y + 1, 0, 0);
  }

  /** `dropInterval`. */
  const DROP_INTERVAL: int := 1000

  /** The drop test of `update`: add the elapsed time; past the interval, `playerDrop`. */
  function Tick(g: MGame, delta: int, rolls: seq<nat>): (r: MGame)
    requires Inv(g) && |rolls| >= 6
    ensures Inv(r)
    ensures g.dropCounter + delta > DROP_INTERVAL ==> r == PlayerDrop(g, rolls) && r.dropCounter == 0
    ensures g.dropCounter + delta <= DROP_INTERVAL ==>
      r.arena == g.arena && r.player == g.player && r.score == g.score && r.dropCounter == g.dropCounter + delta
    ensures g.dropCounter + delta <= DROP_INTERVAL ==> r == g.(dropCounter := g.dropCounter + delta)
  {
    var c := g.dropCounter + delta;
    if c > DROP_INTERVAL then
      PlayerDropCounter(g, c, rolls);
      PlayerDrop(g.(dropCounter := c), rolls)
    else g.(dropCounter := c)
  }

  /** What `playerDrop` does does not depend on the time already counted. */
  lemma PlayerDropCounter(g: MGame, c: int, rolls: seq<nat>)
    requires Inv(g) && |rolls| >= 6
    ensures PlayerDrop(g.(dropCounter := c), rolls) == PlayerDrop(g, rolls)
  {
    var h := g.(dropCounter := c);
    InvCounter(g, c);
    if Collide(g.arena, g.player.matrix, g.player.x, g.player.y + 1) {
      PlayerDropLocks(g, rolls);
      PlayerDropLocks(h, rolls);
      LockCounter(g, c, rolls);
    } else {
      PlayerDropFalls(g, rolls);
      PlayerDropFalls(h, rolls);
    }
  }

  /** The invariant does not look at the drop counter. */
  lemma InvCounter(g: MGame, c: int)
    requires Inv(g)
    ensures Inv(g.(dropCounter := c))
  {
    assert g.(dropCounter := c).arena == g.arena && g.(dropCounter := c).player == g.player;
  }

  /** A piece that can step down does, and the counter restarts. */
  lemma PlayerDropFalls(g: MGame, rolls: seq<nat>)
    requires Inv(g) && |rolls| >= 6
    requires !Collide(g.arena, g.player.matrix, g.player.x, g.player.y + 1)
    ensures PlayerDrop(g, rolls) == g.(player := g.player.(y := g.player.y + 1), dropCounter := 0)
  {
  }

  /** A piece that cannot step down is locked, and the counter restarts. */
  lemma PlayerDropLocks(g: MGame, rolls: seq<nat>)
    requires Inv(g) && |rolls| >= 6
    requires Collide(g.arena, g.player.matrix, g.player.x, g.player.y + 1)
    ensures PlayerDrop(g, rolls) == Lock(g, rolls).(dropCounter := 0)
  {
  }

  /** Locking keeps the drop counter and otherwise ignores it. */
  lemma LockCounter(g: MGame, c: int, rolls: seq<nat>)
    requires Inv(g) && |rolls| >= 6
    ensures Lock(g.(dropCounter := c), rolls) == Lock(g, rolls).(dropCounter := c)
  {
    var k := g.(dropCounter := c);
    InvCounter(g, c);
    assert k.arena == g.arena && k.player == g.player && k.next == g.next && k.bag == g.bag && k.score == g.score;
    assert Merged(k) == Merged(g);
  }


  /** The classified pointer gestures. */
  datatype Gesture = SlideLeft | SlideRight | SlideDown | Tap | SwipeDown

  /** The pointer handlers: slides move or drop one step, a tap rotates, a swipe drops to rest. */
  function HandleGesture(g: MGame, k: Gesture, rolls: seq<nat>): (r: MGame)
    requires Inv(g) && |rolls| >= 6
    ensures Inv(r)
    ensures k == SlideLeft || k == SlideRight || k == Tap ==> r.arena == g.arena && r.score == g.score
    ensures k == SlideLeft ==> r == Move(g, -1)
    ensures k == SlideRight ==> r == Move(g, 1)
    ensures k == SlideDown ==> r == PlayerDrop(g, rolls)
    ensures k == Tap ==> r == Rotate(g, 1)
    ensures k == SwipeDown ==> r == SwipeDrop(g, rolls)
  {
    match k
    case SlideLeft => Move(g, -1)
    case SlideRight => Move(g, 1)
    case SlideDown => PlayerDrop(g, rolls)
    case Tap => Rotate(g, 1)
    case SwipeDown => SwipeDrop(g, rolls)
  }
}

=== FILE: wrappers.dfy ===
/** The optional value used where the source returns `undefined`, `null` or a missing entry. */
module Wrappers {

  datatype Option<+T> = None | Some(value: T)
}
